=== FILE: README.md ===
# Tour step pipeline of the SharePoint tour web part

The tour web part lets a page author list "steps". Each step names a web part instance on the page, a description, a position and an enabled flag. A button on the page then walks the reader through those web parts. This project models, as pure functions over immutable data, the parts of the web part that decide things:

- **Step compilation** (`TourHelper.getTourSteps`). It keeps the enabled entries in list order and gives each one the selector `[data-sp-feature-instance-id='<WebPart>']`.
- **The `Tour` component's state machine** over `{steps, tourDisabled}`:
  - the constructor, `componentDidMount` and `componentDidUpdate`;
  - `initializeTourWithRetry`, which sorts a copy of the list by `Number(sequence) || 0` and settles;
  - `getElement`.
- **`waitForElement`**: the bounded polling loop of `TourWebPart.tsx`, written over an oracle that says what each lookup returns.
- **Web part discovery and the labelling of the target dropdown**, in both web part files:
  - the page walk;
  - instance-id and title defaults;
  - the label fallback chain, cut to 80 characters;
  - the preview text, cut to 60 characters plus `…`;
  - de-duplication by key: the `Map` of `TourWebPart.tsx` keeps the last entry, the `Set` filter of `TourWebPart.ts` keeps the first;
  - the `collectionData` default.

Modules, one file each:

| module | file | models |
|---|---|---|
| `Wrappers` | `wrappers.dfy` | the `Option` and `Result` types |
| `JsStrings` | `js_strings.dfy` | `trim()`, `substring(0, n)`, `replace(/\s+/g, " ")`, decimal numbers |
| `JsValues` | `js_values.dfy` | the scalar JavaScript values in `any` fields; truthiness, `${v}` and `Number(v)` |
| `TourHelper` | `tour_helper.dfy` | the configuration entry and `getTourSteps` |
| `StepOrder` | `step_order.dfy` | the stable sort by the numeric `sequence`, 0 when it is not a number |
| `Dom` | `dom.dfy` | the page as `querySelector` answers it |
| `Polling` | `polling.dfy` | `waitForElement` |
| `TourComponent` | `tour_component.dfy` | the `Tour` component |
| `SitePage` | `site_page.dfy` | the client-side page and its section/column/control walk |
| `Labels` | `labels.dfy` | the `sec[x] col[y]` prefix and or-chains of strings |
| `Dedup` | `dedup.dfy` | keep-first and last-wins de-duplication by key |
| `TourWebPartTsx` | `tour_web_part_tsx.dfy` | `TourWebPart.tsx` |
| `TourWebPartTs` | `tour_web_part_ts.dfy` | `TourWebPart.ts` |

Things worth knowing about how the code behaves, each proved in the model:

- **The sort key.** The component sorts by `sequence`, but the authoring form writes `Position`. With no `sequence` on any entry, the sort is the identity, so the authored positions are ignored (`StepOrder.PositionDoesNotReorder`).
- **The retry branch is dead.** `getTourSteps` returns an array, and an array is always truthy. So `initializeTourWithRetry` settles on the attempt it was called with and schedules no retry (`TourComponent.InitializeTourWithRetry`).
- **`waitForElement` makes one extra lookup.** Because of the post-increment `attempts++ < maxAttempts`, it makes `maxAttempts + 1` lookups (one lookup when `maxAttempts` is not positive). With the defaults that is 21 lookups and 20 delays (`Polling.DefaultsMakeOneExtraLookup`).
- **How a failed lookup ends `waitForElement`'s promise.**
  - A lookup that throws during the first check rejects the promise.
  - A lookup that throws in a later, timer-driven check escapes to the timer, and the promise never settles.
- **The two files disagree on the key.** An empty `instanceId` is kept by the `??` of `TourWebPart.ts` but replaced by the control's id under the `||` of `TourWebPart.tsx` (`TourWebPartTs.KeysAgreeUnlessEmptyInstanceId`).
- **A blank heading suppresses the preview in `TourWebPart.ts`.** A heading whose text is only white space passes the `heading?.textContent` test. The preview is then the empty trimmed text, and the label gets no preview (`TourWebPartTs.BlankHeadingHidesPreview`).

Three things the code does not do, and the model does not either:

- a step targets a web part instance only, never a navigation link;
- the component settles without checking that each step's target exists on the page;
- nothing cancels a poll that a newer one supersedes. In a functional model no input is mutated, so "the sort works on a copy" holds by construction: `TourComponent.ComponentDidUpdate` compares against the untouched previous value.

## Model

| member | source | states |
|---|---|---|
| TourHelper.GetTourSteps | src/webparts/tour/components/TourHelper.ts:2-22 | A missing list gives no steps and nothing fails. Otherwise there is one step per enabled entry (as many as `CountEnabled`). The k-th step comes from the k-th enabled entry: its id is that entry's `id`, its content is the entry's `StepDescription`, and its selector is exactly `[data-sp-feature-instance-id='<WebPart>']`. Nothing depends on the page. |
| TourHelper.EnabledIndices | src/webparts/tour/components/TourHelper.ts:7-8 | The positions used are exactly the enabled entries, in increasing order. |
| TourHelper.CompiledFields | src/webparts/tour/components/TourHelper.ts:7-16 | The k-th compiled step comes from an enabled entry and has that entry's id and description. Its selector is `[data-sp-feature-instance-id='<WebPart>']`. |
| TourHelper.CompileEnabled | src/webparts/tour/components/TourHelper.ts:7-16 | The k-th compiled step is the step of the k-th enabled entry. |
| TourHelper.CountEnabledIndices | src/webparts/tour/components/TourHelper.ts:7-17 | The number of steps equals the number of enabled entries. |
| TourHelper.CountEnabledAppend | src/webparts/tour/components/TourHelper.ts:7-17 | Enabled entries are counted separately in the two halves of a split list. |
| TourHelper.StepsFollowListOrder | src/webparts/tour/components/TourHelper.ts:7-17 | For two enabled entries, the earlier one's step comes first. |
| TourHelper.DisabledEntriesIgnored | src/webparts/tour/components/TourHelper.ts:8 | Appending a disabled entry leaves the steps unchanged. |
| TourHelper.CountEnabledZero | src/webparts/tour/components/TourHelper.ts:6-8 | No step is produced exactly when no entry is enabled. |
| JsValues.ToJsString | src/webparts/tour/components/TourHelper.ts:9 | Interpolating a string gives the string itself; `undefined`, `null`, `true` and `false` give those words. A number gives non-empty text with no white space at either end that `Number` reads back as the same number. |
| JsValues.FalsyValues | src/webparts/tour/components/TourHelper.ts:8 | A value tests false exactly when it is `undefined`, `null`, `false`, `0` or `""`. |
| JsValues.ToNumberTruthiness | src/webparts/tour/components/Tour.tsx:51-52 | `Number(v)` is NaN only for `undefined` and non-numeric text. Outside strings, a value is truthy exactly when its number is neither NaN nor 0. The string `"0"` is truthy although its number is 0. |
| TourHelper.InstanceSelector | src/webparts/tour/components/TourHelper.ts:9 | The step's query is the instance-id attribute selector with the interpolated `WebPart` in single quotes, and that text is read back from it unchanged, so different ids give different queries. |
| TourHelper.UnsetWebPartSelector | src/webparts/tour/components/TourHelper.ts:9 | An entry whose `WebPart` was never set targets the instance id `undefined`. |
| JsValues.StringToNumber | src/webparts/tour/components/Tour.tsx:51-52 | A blank string is 0, a run of decimal digits is its value, and a sign followed by decimal digits is the signed value. Every other text is NaN in this model; the forms JavaScript also reads are listed under Left out. |
| JsValues.NumberOrZero | src/webparts/tour/components/Tour.tsx:51-52 | NaN becomes 0. Any other number is kept. |
| JsValues.NumberOfDecimal | src/webparts/tour/components/Tour.tsx:51-52 | Reading an integer's decimal text back gives the integer. |
| JsStrings.ParseNatToDecimal | src/webparts/tour/components/Tour.tsx:51 | Parsing a natural number's decimal text gives the number. |
| JsStrings.NatToDecimalParse | src/webparts/tour/components/Tour.tsx:51 | A digit string without leading zeros is the decimal text of its value. |
| JsStrings.NatToDecimal | src/webparts/tour/TourWebPart.tsx:48 | A natural number is written as a non-empty run of decimal digits with no leading zero. |
| StepOrder.SortBySequence | src/webparts/tour/components/Tour.tsx:50-54 | The result is a permutation of the input, ascending by `Number(sequence)`, with NaN read as 0, and stable: for every key, the entries with that key keep their relative order. It keeps the number of enabled entries. |
| StepOrder.InsertSorted | src/webparts/tour/components/Tour.tsx:50-54 | Inserting into a sorted list keeps it sorted. |
| StepOrder.InsertWithKey | src/webparts/tour/components/Tour.tsx:50-54 | Inserting an entry puts it before every entry of the list with an equal key. Inserting the list's head into its sorted tail therefore keeps the sort stable. |
| StepOrder.PositionDoesNotReorder | src/webparts/tour/components/Tour.tsx:50-54 | When no entry has a `sequence` (the authoring form writes `Position` instead), the sort does not reorder the list. |
| StepOrder.DecimalSequenceKey | src/webparts/tour/components/Tour.tsx:51-53 | A `sequence` written as decimal text sorts by the number it spells. |
| TourComponent.InitialState | src/webparts/tour/components/Tour.tsx:15-18 | The constructor's state has no steps and a disabled button. It is what any non-array value would show. |
| TourComponent.RetryLoop | src/webparts/tour/components/Tour.tsx:61-77 | For any readiness answers: the loop settles on the first ready attempt, or once the attempt reaches `MAX_ATTEMPTS`. Every attempt it skips was unready and below the cap. It schedules one retry per skipped attempt and waits 500 ms for each. |
| TourComponent.RetryLoopExhausts | src/webparts/tour/components/Tour.tsx:61-77 | If the readiness test never passes, the loop settles on attempt 5, after 5 - attempt retries and 500 ms for each. |
| TourComponent.InitializeTourWithRetry | src/webparts/tour/components/Tour.tsx:40-78 | It settles on the attempt it was called with, with no retry and no wait. A non-array gives no steps and a disabled button. An array gives the steps compiled from its sorted copy, and the button is disabled exactly when there are none. |
| TourComponent.ComponentDidMount | src/webparts/tour/components/Tour.tsx:20-27 | Mounting shows what the data calls for, and the button is disabled exactly when there are no steps. |
| TourComponent.ComponentDidUpdate | src/webparts/tour/components/Tour.tsx:29-38 | Starting from the state the previous data calls for, an update reaches the state the new data calls for. The state changes only when the new data is an array that differs from the old, or when an array became a non-array; the latter disables the tour. Unchanged data changes nothing. |
| TourComponent.LifecycleShowsLatest | src/webparts/tour/components/Tour.tsx:15-38 | After any sequence of property values, the component shows the steps of the latest value. Its button is enabled exactly when there is a step. |
| TourComponent.TourEnabledIffSomeEntryEnabled | src/webparts/tour/components/Tour.tsx:63-71 | For an array, the tour is enabled exactly when some entry is enabled. |
| TourComponent.GetElement | src/webparts/tour/components/Tour.tsx:81-87 | A found element is returned. A lookup that finds nothing, or that throws, gives `null`. |
| Dom.FirstHeading | src/webparts/tour/TourWebPart.tsx:53 | It returns nothing exactly when no descendant matches. Otherwise it returns the first match in document order. |
| Polling.Check | src/webparts/tour/TourWebPart.tsx:143-156 | A check started at counter `a` makes at most `max(max - a, 0) + 1` lookups, with one delay between consecutive lookups. Every lookup before the last found nothing. A hit resolves with the element. A final miss resolves with `null` only once the budget is spent. A throw rejects the promise on the very first lookup and otherwise leaves it pending forever. |
| Polling.WaitForElement | src/webparts/tour/TourWebPart.tsx:138-157 | It makes at most `max(maxAttempts, 0) + 1` lookups and one delay fewer. A first-lookup hit returns that element with no delay. The promise is rejected exactly when the first lookup throws. |
| Polling.NullIffAllMissed | src/webparts/tour/TourWebPart.tsx:146-153 | The result is `null` exactly when each of the `max(maxAttempts, 0) + 1` lookups found nothing. |
| Polling.FirstHitWins | src/webparts/tour/TourWebPart.tsx:145-150 | If lookup i finds an element within the budget and every earlier lookup missed, the result is that element, after i + 1 lookups and i delays. |
| Polling.NeverRenderedRun | src/webparts/tour/TourWebPart.tsx:143-153 | An element that never renders costs `max(maxAttempts, 0) + 1` lookups and one delay fewer, and the promise resolves to `null`. |
| Polling.DefaultsMakeOneExtraLookup | src/webparts/tour/TourWebPart.tsx:140-153 | With the defaults and an element that never renders, it makes 21 lookups and 20 delays. |
| SitePage.ColumnsWalk | src/webparts/tour/TourWebPart.tsx:167-173 | Walking the columns of a section yields one record per control, all tagged with that section, and every control appears. |
| SitePage.ColumnPlacements | src/webparts/tour/TourWebPart.tsx:168-172 | A column's records are its controls in order, each tagged with the section and the column's `order`. |
| SitePage.ColumnsWalkOne | src/webparts/tour/TourWebPart.tsx:168-172 | Walking a single column visits its controls in order. |
| SitePage.ColumnsWalkAppend | src/webparts/tour/TourWebPart.tsx:167-173 | Columns are walked in order: walking two runs of columns is walking the first, then the second. |
| SitePage.Placements | src/webparts/tour/TourWebPart.tsx:166-174 | The page walk has as many records as there are controls, and every control of every column of every section appears. |
| SitePage.PlacementsOne | src/webparts/tour/TourWebPart.tsx:166-174 | A single section is walked column by column. With `PlacementsAppend`, `ColumnsWalkAppend` and `ColumnsWalkOne` this fixes the whole walk order. |
| SitePage.PlacementsAppend | src/webparts/tour/TourWebPart.tsx:166-174 | Sections are walked in page order: walking two runs of sections is walking the first, then the second. |
| TourWebPartTsx.InstanceKey | src/webparts/tour/TourWebPart.tsx:169 | A non-empty `instanceId` is the key. Otherwise the key is the control's `id`. |
| TourWebPartTsx.DisplayTitle | src/webparts/tour/TourWebPart.tsx:170 | The title is never empty and never has white space at either end. It is the trimmed title when that is non-empty, and 'Untitled Web Part' otherwise. |
| TourWebPartTsx.InfosCover | src/webparts/tour/TourWebPart.tsx:164-171 | Every walked control's entry is in the list of entries. |
| TourWebPartTsx.GetAllWebpart | src/webparts/tour/TourWebPart.tsx:160-178 | There is one entry per control, in walk order, and every control is represented. Each entry carries its section, column, key and title. Titles are non-empty and trimmed. |
| TourWebPartTsx.OnPropertyPaneConfigurationStart | src/webparts/tour/TourWebPart.tsx:181-190 | The list afterwards has unique keys, and every key of the page. Keys appear in the order of their first occurrence, each entry is the last one with its key, and the loading indicator is off. |
| Dedup.LastWins | src/webparts/tour/TourWebPart.tsx:185 | A `Map` keeps one value per key, in first-insertion order of the keys. Each value is the last record with that key. |
| Dedup.KeysAtFirstIndices | src/webparts/tour/TourWebPart.tsx:185 | A list holding one record per first-occurring key, in order, has unique keys and covers every key of the input. |
| Dedup.BuildMap | src/webparts/tour/TourWebPart.tsx:185 | Building the `Map` gives the keys of the input in first-insertion order. Each key maps to the last record with that key, and no other key is present. |
| Dedup.LastIndexStep | src/webparts/tour/TourWebPart.tsx:185 | Setting one more record moves its own key's last position there. Every other key keeps its last position. |
| Dedup.LastIndexOf | src/webparts/tour/TourWebPart.tsx:185 | It returns a position holding the key, with no later record holding it. |
| Dedup.FirstIndices | src/webparts/tour/TourWebPart.ts:118-123 | It returns exactly the positions whose key has not occurred before, in increasing order. |
| Dedup.FirstIndicesKeys | src/webparts/tour/TourWebPart.ts:118-123 | The records at those positions have distinct keys, and between them every key of the input. |
| Dedup.FirstIndicesStep | src/webparts/tour/TourWebPart.ts:119-122 | One more record adds its position exactly when its key is not yet in the `Set`. |
| Dedup.KeepFirstStep | src/webparts/tour/TourWebPart.ts:119-122 | One more record is kept, and its key added to the `Set`, exactly when the key is new. Afterwards the kept records are again the first of each key seen. |
| Dedup.KeepFirst | src/webparts/tour/TourWebPart.ts:118-123 | The filter keeps, in input order, the first record of each key. The result has unique keys and every input key. |
| TourWebPartTsx.FeatureTagText | src/webparts/tour/TourWebPart.tsx:52 | A present feature tag gives its trimmed text. A missing attribute counts as empty. |
| TourWebPartTsx.HeadingText | src/webparts/tour/TourWebPart.tsx:53-54 | It is the prefix of the trimmed text of the first h1-h6 or title descendant that is 80 characters long, or all of it when shorter. It is empty when there is no such descendant. |
| TourWebPartTsx.FallbackText | src/webparts/tour/TourWebPart.tsx:55 | It is the prefix of the trimmed element text that is 80 characters long, or all of it when shorter. |
| TourWebPartTsx.LabelText | src/webparts/tour/TourWebPart.tsx:56-60 | The label text is never empty. For a rendered element it is the first non-empty of: feature tag, heading text, element text, title, 'Untitled Web Part'. Without an element, only the title and 'Untitled Web Part' are considered. |
| Labels.LabelPrefixReadBack | src/webparts/tour/TourWebPart.tsx:48 | The section number is read back from between `sec[` and the first `]`, and the column number from between `] col[` and the final `]`. |
| Labels.LabelPrefixInjective | src/webparts/tour/TourWebPart.tsx:48 | Two positions with the same prefix are the same position. |
| Labels.PrefixSplit | src/webparts/tour/TourWebPart.tsx:48 | Texts without `]` are read back unambiguously from `sec[a] col[b]`. |
| Labels.DecimalInjective | src/webparts/tour/TourWebPart.tsx:48 | Different integers have different decimal texts. |
| TourWebPartTsx.DropdownSelector | src/webparts/tour/TourWebPart.tsx:49 | The dropdown's query is the instance-id attribute selector with the key in double quotes, and the key is read back from it unchanged. |
| TourWebPartTsx.SelectorsQuoteDifferently | src/webparts/tour/TourWebPart.tsx:49 | For the same key, the dropdown's query differs from a tour step's: it uses double quotes where the step uses single ones. |
| TourWebPartTsx.DropdownLabel | src/webparts/tour/TourWebPart.tsx:48-62 | A label starts with `sec[<section>] col[<column>] – ` and continues with the text chosen as in `LabelText`. |
| Wrappers.CollectAll | src/webparts/tour/TourWebPart.tsx:46-63 | `Promise.all` succeeds exactly when every element does. It then gives every element's value, one per element, in order. |
| TourWebPartTsx.OptionOf | src/webparts/tour/TourWebPart.tsx:47-61 | An entry's promise resolves exactly when its wait resolves. |
| TourWebPartTsx.Options | src/webparts/tour/TourWebPart.tsx:46-64 | `Promise.all` yields options exactly when every entry's wait resolves. The options are then in list order, one per entry, each with that entry's key and its label. |
| TourWebPartTsx.DropdownDidMount | src/webparts/tour/TourWebPart.tsx:44-68 | The dropdown stays loading, with no options, exactly when some wait rejects or never settles. Otherwise it has one option per entry, with the entry's key and a label starting with its position. |
| TourWebPartTsx.UnrenderedUsesTitle | src/webparts/tour/TourWebPart.tsx:47-61 | An entry whose element never renders during the 21 lookups still resolves. Its option is labelled `sec[<section>] col[<column>] – ` followed by its title, or by 'Untitled Web Part' when the title is empty. |
| Labels.FirstNonEmptyAt | src/webparts/tour/TourWebPart.tsx:56-57 | A non-empty candidate preceded only by empty ones is the result of the or-chain. |
| Labels.FiveWayChain | src/webparts/tour/TourWebPart.tsx:56-57 | The nested or-chain of five strings is the first non-empty of the five. |
| Labels.TwoWayChain | src/webparts/tour/TourWebPart.tsx:60 | The or of two strings is the first non-empty of the two. |
| TourWebPartTsx.EnsureCollectionData | src/webparts/tour/TourWebPart.tsx:194-197 | It fails (`.map` is not a function) exactly when the value is a truthy non-array. A falsy value becomes `[]`, and an array comes back item for item. |
| TourWebPartTsx.WithOwnId | src/webparts/tour/TourWebPart.tsx:197 | `{ id: item.id, ...item }` is a copy equal to the item: the spread copies `id` too. |
| TourWebPartTsx.PaneDefaultKeepsTour | src/webparts/tour/TourWebPart.tsx:194-197 | Whenever the default succeeds, the tour shows the same thing for the defaulted value as for the original. |
| TourWebPartTsx.PaneDefaultIdempotent | src/webparts/tour/TourWebPart.tsx:194-197 | Applying the default to its own result changes nothing. |
| TourWebPartTs.InstanceIdTs | src/webparts/tour/TourWebPart.ts:80 | A present `instanceId` is the key, even an empty one. Otherwise the key is the control's `id`. |
| TourWebPartTs.KeysAgreeUnlessEmptyInstanceId | src/webparts/tour/TourWebPart.ts:80 | The `??` key and the or-fallback key of `TourWebPart.tsx` are equal, except when the instance id is empty and the control id is not. |
| TourWebPartTs.TitleTs | src/webparts/tour/TourWebPart.ts:83-87 | With web part data, the title is the untrimmed title, or "(untitled)" when it is absent. Without web part data it is "Webpart". |
| TourWebPartTs.TitlesAgreeWhenTrimmed | src/webparts/tour/TourWebPart.ts:83-87 | The two files' titles agree on a present, non-empty, already trimmed title. Without web part data they differ. |
| TourWebPartTs.RawText | src/webparts/tour/TourWebPart.ts:99 | The collapsed text has no white space at either end, and its white space is single ordinary spaces. It keeps every non-space character of the element text, in order. Which runs become which spaces is fixed by the collapse lemmas below. |
| TourWebPartTs.Ellipsize | src/webparts/tour/TourWebPart.ts:100 | Text of at most 60 characters is kept whole. Longer text becomes its first 60 characters followed by `…`, so 61 characters in all. |
| TourWebPartTs.EllipsizeKeepsSpacing | src/webparts/tour/TourWebPart.ts:99-100 | Cutting a trimmed, single-spaced text keeps it trimmed and single-spaced. A cut that ends in a space is followed by the ellipsis. |
| TourWebPartTs.HeadingTextIsFirstMatch | src/webparts/tour/TourWebPart.ts:94-95 | A preview heading exists exactly when the first descendant matching `h1`..`h5` or `.ms-webpart-titleText` has non-empty text. A later match is never consulted, even when the first one is empty. |
| TourWebPartTs.PreviewHeadingSkipsH6 | src/webparts/tour/TourWebPart.ts:94 | This query leaves out `h6`, unlike the one in `TourWebPart.tsx` line 53. Take an element whose only heading is an `h6` with non-empty trimmed text of at most 80 characters. It gets no preview heading here, but the other file labels it with exactly that text. |
| TourWebPartTs.ControlSelector | src/webparts/tour/TourWebPart.ts:91 | The element for a control is looked up with the single-quoted selector that a tour step uses. The `??` key is read back unchanged from between the quotes. |
| TourWebPartTs.PreviewText | src/webparts/tour/TourWebPart.ts:89-102 | The preview never has white space at either end, and is empty for an element that is not rendered. When the first `h1`..`h5` or title-class descendant has non-empty text, the preview is that text trimmed. Otherwise it is the collapsed element text cut as `Ellipsize` cuts it, and its white space is single ordinary spaces. |
| TourWebPartTs.BlankHeadingHidesPreview | src/webparts/tour/TourWebPart.ts:95-96 | A heading whose text is all white space yields an empty preview. The label is then just `prefix - title`. |
| TourWebPartTs.ChoiceText | src/webparts/tour/TourWebPart.ts:104-107 | A label starts with `prefix - title`, and is longer than that exactly when there is a preview. A non-empty preview follows the head as ` (preview)`, closing the label. |
| TourWebPartTs.PreviewRoundTrip | src/webparts/tour/TourWebPart.ts:106 | The preview can be read back out of the label. |
| TourWebPartTs.FoundElement | src/webparts/tour/TourWebPart.ts:91-93 | There is an element to read a preview from exactly when the lookup found one. |
| TourWebPartTs.ChoiceOf | src/webparts/tour/TourWebPart.ts:78-108 | A control gives no choice exactly when its lookup throws. Otherwise its choice has the `??` key, and its label is `sec[x] col[y] - title` followed by the preview of the element the lookup found, if that preview is not empty. |
| TourWebPartTs.ChoicesOf | src/webparts/tour/TourWebPart.ts:76-110 | The walk fails exactly when some control's lookup throws. Otherwise it gives one choice per control, in order, and each is that control's choice, label included. |
| TourWebPartTs.GetAllWebpartTs | src/webparts/tour/TourWebPart.ts:70-113 | The promise rejects exactly when some control's lookup throws. Otherwise there is one choice per control, in walk order, and each is that control's key and full label with its preview. |
| TourWebPartTs.ChoicesAreLabels | src/webparts/tour/TourWebPart.ts:78-107 | In a resolved walk, the i-th choice is the i-th control's `??` key, with the label built from its position, its title and the preview of its found element. |
| TourWebPartTs.OnPropertyPaneConfigurationStart | src/webparts/tour/TourWebPart.ts:115-132 | If the page walk rejects, nothing changes. Otherwise the list holds, in order, the first choice of each key. Its keys are unique and cover the page, and the loading indicator is off. |
| JsStrings.Trim | src/webparts/tour/TourWebPart.tsx:170 | `trim()` leaves no white space at either end and is no longer than its input. It removes only white space: the non-space characters are those of the input, in order. |
| JsStrings.TrimIsSlice | src/webparts/tour/TourWebPart.tsx:170 | What `trim()` keeps is the contiguous slice of the input that starts after its leading white space. Only white space lies on either side of that slice. |
| JsStrings.TrimStart | src/webparts/tour/TourWebPart.tsx:170 | The front trim keeps a suffix of the input. What it drops is all white space, what it keeps does not start with white space, and no other character is lost. |
| JsStrings.TrimIdempotent | src/webparts/tour/TourWebPart.tsx:170 | Trimming twice is trimming once. |
| JsStrings.Take | src/webparts/tour/TourWebPart.tsx:54 | `substring(0, n)` is a prefix of at most n characters: the whole string when it fits, and exactly n characters otherwise. |
| JsStrings.CollapseSpacesCollapsed | src/webparts/tour/TourWebPart.ts:99 | Every white-space character of the result is an ordinary space, and no two are adjacent. Non-space characters are kept in order. The result is never longer than the input and is empty only when the input is. It starts or ends with white space only where the input does. |
| JsStrings.CollapseConsWord | src/webparts/tour/TourWebPart.ts:99 | Read from the front, a character that is not white space is kept in front of the collapse of the rest. |
| JsStrings.CollapseConsJoin | src/webparts/tour/TourWebPart.ts:99 | Read from the front, white space followed by more white space adds nothing of its own: it joins the run that follows. |
| JsStrings.CollapseConsEnd | src/webparts/tour/TourWebPart.ts:99 | Read from the front, white space at the end of a run becomes one ordinary space in front of the collapse of the rest. |
| JsStrings.CollapseAppendWord | src/webparts/tour/TourWebPart.ts:99 | If two pieces collapse independently, they still do after a non-space character is put in front of the first. |
| JsStrings.CollapseAppendLone | src/webparts/tour/TourWebPart.ts:99 | A single white-space character and a piece that does not start with white space collapse independently. |
| JsStrings.CollapseAppendJoin | src/webparts/tour/TourWebPart.ts:99 | If two pieces collapse independently, they still do after white space is put in front of a first piece that starts with white space. |
| JsStrings.CollapseAppendEnd | src/webparts/tour/TourWebPart.ts:99 | If two pieces collapse independently, they still do after white space is put in front of a first piece that starts with a word. |
| JsStrings.CollapseAppend | src/webparts/tour/TourWebPart.ts:99 | Wherever a cut does not split a run of white space, the two pieces are collapsed independently. |
| JsStrings.CollapseWord | src/webparts/tour/TourWebPart.ts:99 | Text without white space is left unchanged. |
| JsStrings.CollapseRun | src/webparts/tour/TourWebPart.ts:99 | A non-empty run of white space becomes exactly one ordinary space. |
| JsStrings.CollapseRunThen | src/webparts/tour/TourWebPart.ts:99 | A run of white space in front of a piece that starts with a word becomes one space in front of that piece's collapse. |
| JsStrings.CollapseBetween | src/webparts/tour/TourWebPart.ts:99 | A maximal run of white space between two pieces becomes one space in place, and the pieces on either side are collapsed on their own. |
| JsStrings.IntToDecimal | src/webparts/tour/TourWebPart.tsx:48 | For an integer order of magnitude below 1e21, the number in `sec[${order}]` is rendered with no white space at either end, using only digits and a minus sign. |

## Left out

- The `localeCompare` sorts of the dropdown options (`TourWebPart.tsx` line 65, `TourWebPart.ts` line 125) are locale-dependent and not modelled.
  - TourWebPartTsx.DropdownDidMount: its options are given in list order, before that sort.
  - TourWebPartTs.OnPropertyPaneConfigurationStart: its list is given before that sort.
- JsValues.StringToNumber: covers only optionally signed runs of decimal digits. Every other text is NaN in the model, though JavaScript reads some of it as a number: decimal text with a point (`1.5`, `1.0`, `5.`, `.5`), exponents (`1e3`), hexadecimal, binary and octal literals (`0x1F`, `0b11`, `0o17`) and `Infinity`. These are left out because floating point and the prefixed literal forms are not modelled.
- JsStrings.IntToDecimal: section and column orders are modelled as integers, and the rendering agrees with JavaScript only for magnitudes below 1e21. JavaScript renders a fractional order as, for example, `1.5`, and an order of magnitude 1e21 or more in exponent form (`1e+21`). Those renderings are not modelled, because floating point is not.
- JsValues.ToNumber: configuration values are scalars (`undefined`, `null`, booleans, integers, strings). Objects and arrays inside entries are not modelled.
- TourComponent.JsonDiffers: `JSON.stringify` is not modelled as text. Two collections are taken to serialise alike exactly when they are equal as modelled values, so the predicate is that inequality and promises nothing more.
- TourComponent.ComponentDidUpdate: the `JSON.stringify` comparison is modelled as equality of the modelled values. JSON's key order, and its dropping of `undefined` fields, are not modelled.
- Array items that are not objects are not modelled. A `null` or primitive item would throw in each of these:
  - TourWebPartTsx.EnsureCollectionData: `item.id` throws.
  - TourHelper.GetTourSteps: `ele.Enabled` throws.
  - StepOrder.SortBySequence: `a.sequence` throws in the comparator.
- Polling.WaitForElement: the lengths of the delays are not modelled, only their number. Timers run to completion, and no unmount interrupts them.
- TourComponent.RetryLoop: the 500 ms waits are counted, not timed.
- Text is a sequence of Unicode characters. `substring` and `length` count UTF-16 code units, so text outside the Basic Multilingual Plane is not modelled.
- Fetching the page through PnP (`sp.web`, `ClientSidePage.fromFile`) is not modelled. The fetched page is an input.
- These are presentation and side effects, and are not modelled: SPFx lifecycle (`onInit`, `render`, `onDispose`, `dataVersion`), the property-pane field definitions, `propertyPane.refresh()`, React rendering, intro.js tour construction, scrolling, `highlightWebPart` and `console` logging.
- The rest of `getPropertyPaneConfiguration` in `TourWebPart.ts` (lines 134-233) is not modelled: the file does not parse at line 184. Its `collectionData` default (lines 135-143) is the same code as in `TourWebPart.tsx`, modelled by `TourWebPartTsx.EnsureCollectionData`.
- The `url` and `elementType` fields of the step type are declared but never produced, so they are not modelled.
- `ITourProps.ts`, `loc/mystrings.d.ts` and `gulpfile.js` are declarations and build configuration only.

=== FILE: dedup.dfy ===
/** Removing duplicate web parts by key, the two ways the web part files do
    it: a `Set`-guarded `filter` that keeps the first record per key, and
    `[...new Map(res.map(wp => [wp.key, wp])).values()]`, where a later
    record replaces the value but the key keeps its first-seen position.
    Both are specified against the positions of first occurrences. */
module Dedup {

  /** The keys that occur in `s`. */
  function KeySet<T, K>(s: seq<T>, key: T -> K): set<K> {
    set i | 0 <= i < |s| :: key(s[i])
  }

  predicate UniqueKeys<T, K(==)>(s: seq<T>, key: T -> K) {
    forall i, j :: 0 <= i < j < |s| ==> key(s[i]) != key(s[j])
  }

  /** No record before position `i` has the key of `s[i]`. */
  predicate IsFirst<T, K(==)>(s: seq<T>, key: T -> K, i: nat)
    requires i < |s|
  {
    forall j :: 0 <= j < i ==> key(s[j]) != key(s[i])
  }

  /** The positions of the first occurrence of each key, in increasing order. */
  function FirstIndices<T, K(==)>(s: seq<T>, key: T -> K): (r: seq<nat>)
    ensures forall k :: 0 <= k < |r| ==> r[k] < |s| && IsFirst(s, key, r[k])
    ensures forall k, l :: 0 <= k < l < |r| ==> r[k] < r[l]
    ensures forall i :: 0 <= i < |s| && IsFirst(s, key, i) ==> i in r
  {
    if |s| == 0 then []
    else
      var n := |s| - 1;
      var q := FirstIndices(s[..n], key);
      FirstIndicesPrefix(s, key, n);
      if IsFirst(s, key, n) then q + [n] else q
  }

  /** Whether a position holds a first occurrence does not depend on what
      follows it. */
  lemma FirstIndicesPrefix<T, K>(s: seq<T>, key: T -> K, n: nat)
    requires n <= |s|
    ensures forall i :: 0 <= i < n ==> (IsFirst(s[..n], key, i) <==> IsFirst(s, key, i))
    ensures forall i :: 0 <= i < n ==> s[..n][i] == s[i]
  {
  }

  /** The earliest record with the key of `s[i]` is a first occurrence. */
  lemma EarliestWithKey<T, K>(s: seq<T>, key: T -> K, i: nat) returns (j: nat)
    requires i < |s|
    ensures j <= i && key(s[j]) == key(s[i]) && IsFirst(s, key, j)
  {
    if IsFirst(s, key, i) {
      j := i;
    } else {
      var j' :| 0 <= j' < i && key(s[j']) == key(s[i]);
      j := EarliestWithKey(s, key, j');
    }
  }

  /** The records at first-occurrence positions have pairwise distinct keys
      and, between them, every key of `s`. */
  lemma FirstIndicesKeys<T, K>(s: seq<T>, key: T -> K)
    ensures var r := FirstIndices(s, key);
            && (forall k, l :: 0 <= k < l < |r| ==> key(s[r[k]]) != key(s[r[l]]))
            && (set k | 0 <= k < |r| :: key(s[r[k]])) == KeySet(s, key)
  {
    var r := FirstIndices(s, key);
    forall k, l | 0 <= k < l < |r|
      ensures key(s[r[k]]) != key(s[r[l]])
    {
      assert IsFirst(s, key, r[l]);
    }
    forall x | x in KeySet(s, key)
      ensures x in set k | 0 <= k < |r| :: key(s[r[k]])
    {
      var i :| 0 <= i < |s| && key(s[i]) == x;
      var j := EarliestWithKey(s, key, i);
      var k :| 0 <= k < |r| && r[k] == j;
    }
  }

  /** Extending the list by one record adds its position when, and only
      when, its key is new. */
  lemma FirstIndicesStep<T, K>(s: seq<T>, key: T -> K, i: nat)
    requires i < |s|
    ensures FirstIndices(s[..i + 1], key)
            == FirstIndices(s[..i], key) + (if key(s[i]) in KeySet(s[..i], key) then [] else [i])
  {
    var t := s[..i + 1];
    assert t[..i] == s[..i];
    assert |t| - 1 == i;
    if key(s[i]) in KeySet(s[..i], key) {
      var j :| 0 <= j < i && key(s[..i][j]) == key(s[i]);
      assert key(t[j]) == key(t[i]);
      assert !IsFirst(t, key, i);
    } else {
      forall j | 0 <= j < i
        ensures key(t[j]) != key(t[i])
      {
        assert key(s[..i][j]) in KeySet(s[..i], key);
      }
      assert IsFirst(t, key, i);
    }
  }

  lemma KeySetStep<T, K>(s: seq<T>, key: T -> K, i: nat)
    requires i < |s|
    ensures KeySet(s[..i + 1], key) == KeySet(s[..i], key) + {key(s[i])}
  {
    var a := KeySet(s[..i + 1], key);
    var b := KeySet(s[..i], key) + {key(s[i])};
    forall x | x in a ensures x in b {
      var j :| 0 <= j < i + 1 && key(s[..i + 1][j]) == x;
      if j < i {
        assert key(s[..i][j]) == x;
      }
    }
    forall x | x in b ensures x in a {
      if x != key(s[i]) {
        var j :| 0 <= j < i && key(s[..i][j]) == x;
        assert key(s[..i + 1][j]) == x;
      } else {
        assert key(s[..i + 1][i]) == x;
      }
    }
  }

  /** The position of the last record with key `k`. */
  function LastIndexOf<T, K(==)>(s: seq<T>, key: T -> K, k: K): (i: nat)
    requires k in KeySet(s, key)
    ensures i < |s| && key(s[i]) == k
    ensures forall j :: i < j < |s| ==> key(s[j]) != k
  {
    var n := |s| - 1;
    if key(s[n]) == k then n
    else
      KeySetStep(s, key, n);
      assert s[..n + 1] == s;
      var i := LastIndexOf(s[..n], key, k);
      assert s[..n][i] == s[i];
      i
  }

  /** A list holding, in order, one record with the key of each first
      occurrence has unique keys and all the keys of `s`. */
  lemma KeysAtFirstIndices<T, K>(s: seq<T>, key: T -> K, r: seq<T>)
    requires |r| == |FirstIndices(s, key)|
    requires forall k :: 0 <= k < |r| ==> key(r[k]) == key(s[FirstIndices(s, key)[k]])
    ensures UniqueKeys(r, key)
    ensures KeySet(r, key) == KeySet(s, key)
  {
    FirstIndicesKeys(s, key);
    var fi := FirstIndices(s, key);
    assert KeySet(r, key) == set k | 0 <= k < |fi| :: key(s[fi[k]]) by {
      forall x | x in KeySet(r, key) ensures x in set k | 0 <= k < |fi| :: key(s[fi[k]]) {
        var j :| 0 <= j < |r| && key(r[j]) == x;
        assert key(s[fi[j]]) == x;
      }
      forall x | x in set k | 0 <= k < |fi| :: key(s[fi[k]]) ensures x in KeySet(r, key) {
        var j :| 0 <= j < |fi| && key(s[fi[j]]) == x;
        assert key(r[j]) == x;
      }
    }
  }

  /** After looking at `s[..i]`, the filter has seen exactly the keys of
      `s[..i]` and kept the records at their first-occurrence positions. */
  ghost predicate KeptFirst<T, K>(s: seq<T>, key: T -> K, i: nat, seen: set<K>, r: seq<T>)
    requires i <= |s|
  {
    && seen == KeySet(s[..i], key)
    && |r| == |FirstIndices(s[..i], key)|
    && forall k :: 0 <= k < |r| ==> r[k] == s[FirstIndices(s[..i], key)[k]]
  }

  /** One more record: kept, with its key added to the seen set, when the
      key is new; skipped otherwise. */
  lemma KeepFirstStep<T, K>(s: seq<T>, key: T -> K, i: nat, seen: set<K>, r: seq<T>)
    requires i < |s| && KeptFirst(s, key, i, seen, r)
    ensures key(s[i]) !in seen ==> KeptFirst(s, key, i + 1, seen + {key(s[i])}, r + [s[i]])
    ensures key(s[i]) in seen ==> KeptFirst(s, key, i + 1, seen, r)
  {
    FirstIndicesStep(s, key, i);
    KeySetStep(s, key, i);
  }

  /** The `.ts` filter: a `Set` of keys seen so far, a record kept only when
      its key is new. */
  method KeepFirst<T, K(==)>(s: seq<T>, key: T -> K) returns (r: seq<T>)
    ensures |r| == |FirstIndices(s, key)|
    ensures forall k :: 0 <= k < |r| ==> r[k] == s[FirstIndices(s, key)[k]]
    ensures UniqueKeys(r, key)
    ensures KeySet(r, key) == KeySet(s, key)
  {
    var seen: set<K> := {};
    r := [];
    var i := 0;
    while i < |s|
      invariant 0 <= i <= |s|
      invariant KeptFirst(s, key, i, seen, r)
    {
      KeepFirstStep(s, key, i, seen, r);
      if key(s[i]) !in seen {
        r := r + [s[i]];
        seen := seen + {key(s[i])};
      }
      i := i + 1;
    }
    assert s[..|s|] == s;
    KeysAtFirstIndices(s, key, r);
  }

  /** Looking one record further: the record's own key now ends there,
      every other key ends where it did. */
  lemma LastIndexStep<T, K>(s: seq<T>, key: T -> K, i: nat, y: K)
    requires i < |s| && y in KeySet(s[..i + 1], key)
    ensures y == key(s[i]) ==> LastIndexOf(s[..i + 1], key, y) == i
    ensures y != key(s[i]) ==> y in KeySet(s[..i], key) && LastIndexOf(s[..i + 1], key, y) == LastIndexOf(s[..i], key, y)
  {
    KeySetStep(s, key, i);
    assert s[..i + 1][..i] == s[..i];
  }

  /** The `.tsx` `Map`: keys in first-insertion order, each holding the last
      record set for it. */
  method LastWins<T, K(==)>(s: seq<T>, key: T -> K) returns (r: seq<T>)
    ensures |r| == |FirstIndices(s, key)|
    ensures forall k :: 0 <= k < |r| ==> key(r[k]) == key(s[FirstIndices(s, key)[k]])
    ensures forall k :: 0 <= k < |r| ==> key(r[k]) in KeySet(s, key) && r[k] == s[LastIndexOf(s, key, key(r[k]))]
  {
    var order, m := BuildMap(s, key);
    forall k | 0 <= k < |order| ensures order[k] in m {
      var fi := FirstIndices(s, key);
      assert key(s[fi[k]]) in KeySet(s, key);
    }
    r := seq(|order|, k requires 0 <= k < |order| && order[k] in m => m[order[k]]);
  }

  /** `new Map(res.map(wp => [wp.key, wp]))`: the keys in the order they
      were first set, and for each the record set last. */
  method BuildMap<T, K(==)>(s: seq<T>, key: T -> K) returns (order: seq<K>, m: map<K, T>)
    ensures m.Keys == KeySet(s, key)
    ensures |order| == |FirstIndices(s, key)|
    ensures forall k :: 0 <= k < |order| ==> order[k] == key(s[FirstIndices(s, key)[k]])
    ensures forall x :: x in m ==> m[x] == s[LastIndexOf(s, key, x)]
  {
    order := [];
    m := map[];
    var i := 0;
    while i < |s|
      invariant 0 <= i <= |s|
      invariant m.Keys == KeySet(s[..i], key)
      invariant |order| == |FirstIndices(s[..i], key)|
      invariant forall k :: 0 <= k < |order| ==> order[k] == key(s[FirstIndices(s[..i], key)[k]])
      invariant forall x :: x in m ==> m[x] == s[LastIndexOf(s[..i], key, x)]
    {
      FirstIndicesStep(s, key, i);
      KeySetStep(s, key, i);
      var x := key(s[i]);
      if x !in m {
        order := order + [x];
      }
      var m' := m[x := s[i]];
      forall y | y in m'
        ensures m'[y] == s[LastIndexOf(s[..i + 1], key, y)]
      {
        LastIndexStep(s, key, i, y);
      }
      m := m';
      i := i + 1;
    }
    assert s[..|s|] == s;
  }
}

=== FILE: dom.dfy ===
/** The page as the tour code sees it through `document.querySelector`: each
    lookup finds an element, finds nothing, or throws (an invalid selector).
    An element is reduced to the parts the labelling code reads. */
module Dom {
  import opened Wrappers

  /** The outcome of one `querySelector` call. */
  datatype DomLookup<E> = Found(element: E) | Missing | Threw

  /** A descendant the heading queries can match: an `h1`..`h6` element, or
      an element with class `ms-webpart-titleText`. */
  datatype HeadingKind = H(level: nat) | TitleText

  datatype Heading = Heading(kind: HeadingKind, text: string)

  /** A rendered web part element: its `data-sp-feature-tag` attribute
      (`None` when absent), its heading candidates in document order, and its
      `textContent`. */
  datatype ElementView = ElementView(featureTag: Option<string>, headings: seq<Heading>, text: string)

  /** Does `h` match a selector list `h1,...,h<maxLevel>,.ms-webpart-titleText`? */
  predicate MatchesHeading(h: Heading, maxLevel: nat) {
    match h.kind
    case TitleText => true
    case H(level) => 1 <= level <= maxLevel
  }

  /** `el.querySelector('h1,...,h<maxLevel>,.ms-webpart-titleText')`: the
      first matching descendant in document order. */
  function FirstHeading(hs: seq<Heading>, maxLevel: nat): (r: Option<Heading>)
    ensures r.None? <==> forall i :: 0 <= i < |hs| ==> !MatchesHeading(hs[i], maxLevel)
    ensures r.Some? ==> exists i :: 0 <= i < |hs| && hs[i] == r.value && MatchesHeading(hs[i], maxLevel)
                                    && forall j :: 0 <= j < i ==> !MatchesHeading(hs[j], maxLevel)
  {
    if |hs| == 0 then None
    else if MatchesHeading(hs[0], maxLevel) then Some(hs[0])
    else
      var r := FirstHeading(hs[1..], maxLevel);
      if r.Some? then
        var i :| 0 <= i < |hs[1..]| && hs[1..][i] == r.value && MatchesHeading(hs[1..][i], maxLevel)
                 && forall j :: 0 <= j < i ==> !MatchesHeading(hs[1..][j], maxLevel);
        assert hs[i + 1] == r.value;
        r
      else r
  }
}

=== FILE: js_strings.dfy ===
/** The few pieces of JavaScript string behaviour the tour code relies on:
    `trim()`, `substring(0, n)`, `replace(/\s+/g, " ")` and the decimal
    rendering and parsing of integers. A `char` stands for one code unit. */
module JsStrings {

  /** The characters `trim()` removes and `\s` matches: ECMAScript WhiteSpace
      and LineTerminator. */
  const SPACE_CHARS: set<char> := {
    '\t', '\n', '\U{000B}', '\U{000C}', '\r', ' ', '\U{00A0}', '\U{1680}',
    '\U{2000}', '\U{2001}', '\U{2002}', '\U{2003}', '\U{2004}', '\U{2005}',
    '\U{2006}', '\U{2007}', '\U{2008}', '\U{2009}', '\U{200A}',
    '\U{2028}', '\U{2029}', '\U{202F}', '\U{205F}', '\U{3000}', '\U{FEFF}'
  }

  predicate IsSpace(c: char) {
    c in SPACE_CHARS
  }

  predicate AllSpace(s: string) {
    forall i :: 0 <= i < |s| ==> IsSpace(s[i])
  }

  /** Neither end of `s` is white space. */
  predicate NoEdgeSpace(s: string) {
    |s| > 0 ==> !IsSpace(s[0]) && !IsSpace(s[|s| - 1])
  }

  /** The characters of `s` that are not white space, in order. */
  function NonSpace(s: string): string {
    if |s| == 0 then ""
    else (if IsSpace(s[0]) then "" else [s[0]]) + NonSpace(s[1..])
  }

  /** `r` is `s` without its leading white space. */
  predicate StartTrimmedFrom(r: string, s: string) {
    && |r| <= |s| && r == s[|s| - |r|..]
    && AllSpace(s[..|s| - |r|])
    && (|r| > 0 ==> !IsSpace(r[0]))
    && NonSpace(r) == NonSpace(s)
  }

  /** Dropping one more leading white-space character. */
  lemma TrimStartStep(s: string, r: string)
    requires |s| > 0 && IsSpace(s[0]) && StartTrimmedFrom(r, s[1..])
    ensures StartTrimmedFrom(r, s)
  {
    var n := |s| - |r|;
    assert r == s[n..] by {
      assert s[1..][|s| - 1 - |r|..] == s[n..];
    }
    assert AllSpace(s[..n]) by {
      forall i | 0 <= i < n
        ensures IsSpace(s[..n][i])
      {
        if i > 0 {
          assert s[..n][i] == s[1..][..n - 1][i - 1];
        }
      }
    }
    assert NonSpace(s) == NonSpace(s[1..]);
  }

  /** Drops the white space at the front of `s`. */
  function TrimStart(s: string): (r: string)
    ensures StartTrimmedFrom(r, s)
  {
    if |s| > 0 && IsSpace(s[0]) then
      var r := TrimStart(s[1..]);
      TrimStartStep(s, r);
      r
    else s
  }

  /** Drops the white space at the back of `s`. */
  function TrimEnd(s: string): (r: string)
    ensures |r| <= |s| && r == s[..|r|]
    ensures AllSpace(s[|r|..])
    ensures |r| > 0 ==> !IsSpace(r[|r| - 1])
    ensures NonSpace(r) == NonSpace(s)
  {
    if |s| > 0 && IsSpace(s[|s| - 1]) then
      var t := s[..|s| - 1];
      assert s == t + [s[|s| - 1]];
      NonSpaceAppend(t, [s[|s| - 1]]);
      TrimEnd(t)
    else s
  }

  /** `s.trim()`: white space removed from both ends, and nothing else. */
  function Trim(s: string): (r: string)
    ensures NoEdgeSpace(r) && |r| <= |s|
    ensures NonSpace(r) == NonSpace(s)
  {
    TrimEnd(TrimStart(s))
  }

  /** What `trim()` keeps is the contiguous slice of `s` after its leading
      white space; only white space lies on either side of it. */
  lemma TrimIsSlice(s: string)
    ensures var i := LeadingSpace(s); var r := Trim(s);
            i + |r| <= |s| && r == s[i..i + |r|] && AllSpace(s[..i]) && AllSpace(s[i + |r|..])
  {
    var a := TrimStart(s);
    var i, r := |s| - |a|, TrimEnd(a);
    assert Trim(s) == r && LeadingSpace(s) == i;
    SliceOfSuffix(s, i, a, r);
    assert s[i + |r|..] == a[|r|..];
  }

  /** A prefix `r` of the suffix `a == s[i..]` is the slice of `s` that
      starts at `i`, and what follows it in `a` is what follows it in `s`. */
  lemma SliceOfSuffix(s: string, i: nat, a: string, r: string)
    requires i <= |s| && a == s[i..] && |r| <= |a| && r == a[..|r|]
    ensures i + |r| <= |s| && r == s[i..i + |r|] && s[i + |r|..] == a[|r|..]
  {
  }

  /** How many white-space characters `trim()` removes from the front. */
  function LeadingSpace(s: string): nat {
    |s| - |TrimStart(s)|
  }

  /** Trimming leaves a string without edge white space unchanged. */
  lemma TrimKeepsTrimmed(s: string)
    requires NoEdgeSpace(s)
    ensures Trim(s) == s
  {
    assert TrimStart(s) == s;
  }

  /** `trim()` is idempotent. */
  lemma TrimIdempotent(s: string)
    ensures Trim(Trim(s)) == Trim(s)
  {
    TrimKeepsTrimmed(Trim(s));
  }

  /** `s.substring(0, n)` for `n >= 0`. */
  function Take(s: string, n: nat): (r: string)
    ensures |r| <= n && r <= s
    ensures |s| <= n ==> r == s
    ensures |s| > n ==> |r| == n
  {
    if |s| <= n then s else s[..n]
  }

  lemma NonSpaceAppend(a: string, b: string)
    ensures NonSpace(a + b) == NonSpace(a) + NonSpace(b)
  {
    if |a| > 0 {
      assert (a + b)[1..] == a[1..] + b;
      NonSpaceAppend(a[1..], b);
    } else {
      assert a + b == b;
    }
  }

  /** Every white-space character of `s` is an ordinary space and no two
      of them are adjacent. */
  predicate SingleSpaced(s: string) {
    && (forall i :: 0 <= i < |s| && IsSpace(s[i]) ==> s[i] == ' ')
    && (forall i :: 0 <= i < |s| - 1 && IsSpace(s[i]) ==> !IsSpace(s[i + 1]))
  }

  lemma ConsSingleSpaced(c: char, rest: string)
    requires SingleSpaced(rest)
    requires IsSpace(c) ==> c == ' ' && (|rest| > 0 ==> !IsSpace(rest[0]))
    ensures SingleSpaced([c] + rest)
  {
    var r := [c] + rest;
    assert forall i :: 1 <= i < |r| ==> r[i] == rest[i - 1];
  }

  /** `r` is what collapsing the white space of `s` must give: the same
      emptiness and the same kind of character at either end, single
      spacing, and the same non-space characters in order. */
  predicate CollapsedFrom(r: string, s: string) {
    && |r| <= |s|
    && (|r| == 0 <==> |s| == 0)
    && (|s| > 0 ==> (IsSpace(r[0]) <==> IsSpace(s[0])))
    && (|s| > 0 ==> (IsSpace(r[|r| - 1]) <==> IsSpace(s[|s| - 1])))
    && SingleSpaced(r)
    && NonSpace(r) == NonSpace(s)
  }

  /** A character that is not white space is kept in front of the
      collapsed rest. */
  lemma CollapseKeepStep(s: string, rest: string)
    requires |s| > 0 && !IsSpace(s[0]) && CollapsedFrom(rest, s[1..])
    ensures CollapsedFrom([s[0]] + rest, s)
  {
    NonSpaceAppend([s[0]], rest);
    NonSpaceAppend([s[0]], s[1..]);
    assert s == [s[0]] + s[1..];
    ConsSingleSpaced(s[0], rest);
  }

  /** A white-space character followed by more white space joins the run
      that the rest begins with. */
  lemma CollapseJoinStep(s: string, rest: string)
    requires |s| > 1 && IsSpace(s[0]) && IsSpace(s[1]) && CollapsedFrom(rest, s[1..])
    ensures CollapsedFrom(rest, s)
  {
    NonSpaceAppend([s[0]], s[1..]);
    assert s == [s[0]] + s[1..];
  }

  /** A white-space character that ends a run becomes one space in front
      of the collapsed rest. */
  lemma CollapseEndStep(s: string, rest: string)
    requires |s| > 0 && IsSpace(s[0]) && (|s| > 1 ==> !IsSpace(s[1])) && CollapsedFrom(rest, s[1..])
    ensures CollapsedFrom(" " + rest, s)
  {
    NonSpaceAppend(" ", rest);
    NonSpaceAppend([s[0]], s[1..]);
    assert s == [s[0]] + s[1..];
    ConsSingleSpaced(' ', rest);
  }

  /** `s.replace(/\s+/g, " ")`, read one character at a time: a
      non-space character is kept, a white-space character followed by more
      white space joins that run, and the last character of a run becomes
      one ordinary space. */
  function CollapseSpaces(s: string): string {
    if |s| == 0 then ""
    else
      var rest := CollapseSpaces(s[1..]);
      if !IsSpace(s[0]) then [s[0]] + rest
      else if |s| > 1 && IsSpace(s[1]) then rest
      else " " + rest
  }

  /** The collapse has the shape `CollapsedFrom` describes. */
  lemma {:induction false} CollapseSpacesCollapsed(s: string)
    ensures CollapsedFrom(CollapseSpaces(s), s)
  {
    if |s| > 0 {
      CollapseSpacesCollapsed(s[1..]);
      var rest := CollapseSpaces(s[1..]);
      if !IsSpace(s[0]) {
        CollapseKeepStep(s, rest);
      } else if |s| > 1 && IsSpace(s[1]) {
        CollapseJoinStep(s, rest);
      } else {
        CollapseEndStep(s, rest);
      }
    }
  }

  /** `s` holds no white space: a word. */
  predicate NoSpace(s: string) {
    forall i :: 0 <= i < |s| ==> !IsSpace(s[i])
  }

  /** Read from the front, a character that is not white space is kept. */
  lemma CollapseConsWord(c: char, t: string)
    requires !IsSpace(c)
    ensures CollapseSpaces([c] + t) == [c] + CollapseSpaces(t)
  {
    assert ([c] + t)[1..] == t;
  }

  /** Read from the front, white space followed by more white space joins
      that run. */
  lemma CollapseConsJoin(c: char, t: string)
    requires IsSpace(c) && |t| > 0 && IsSpace(t[0])
    ensures CollapseSpaces([c] + t) == CollapseSpaces(t)
  {
    assert ([c] + t)[1..] == t;
    assert ([c] + t)[1] == t[0];
  }

  /** Read from the front, the last character of a run of white space
      becomes one space. */
  lemma CollapseConsEnd(c: char, t: string)
    requires IsSpace(c) && (|t| == 0 || !IsSpace(t[0]))
    ensures CollapseSpaces([c] + t) == " " + CollapseSpaces(t)
  {
    assert ([c] + t)[1..] == t;
    if |t| > 0 {
      assert ([c] + t)[1] == t[0];
    }
  }

  /** A step of `CollapseAppend`: a character that is not white space in
      front of the first piece. */
  lemma CollapseAppendWord(c: char, t: string, y: string)
    requires !IsSpace(c)
    requires CollapseSpaces(t + y) == CollapseSpaces(t) + CollapseSpaces(y)
    ensures CollapseSpaces([c] + (t + y)) == CollapseSpaces([c] + t) + CollapseSpaces(y)
  {
    var ct, cy := CollapseSpaces(t), CollapseSpaces(y);
    CollapseConsWord(c, t + y);
    CollapseConsWord(c, t);
    assert [c] + (ct + cy) == ([c] + ct) + cy;
  }

  /** A step of `CollapseAppend`: white space as the whole first piece,
      before a second piece that does not start with white space. */
  lemma CollapseAppendLone(c: char, y: string)
    requires IsSpace(c) && (|y| == 0 || !IsSpace(y[0]))
    ensures CollapseSpaces([c] + y) == CollapseSpaces([c]) + CollapseSpaces(y)
  {
    CollapseConsEnd(c, y);
    CollapseConsEnd(c, "");
    assert [c] + "" == [c];
  }

  /** A step of `CollapseAppend`: white space in front of a first piece that
      starts with white space. */
  lemma CollapseAppendJoin(c: char, t: string, y: string)
    requires IsSpace(c) && |t| > 0 && IsSpace(t[0])
    requires CollapseSpaces(t + y) == CollapseSpaces(t) + CollapseSpaces(y)
    ensures CollapseSpaces([c] + (t + y)) == CollapseSpaces([c] + t) + CollapseSpaces(y)
  {
    assert (t + y)[0] == t[0];
    CollapseConsJoin(c, t + y);
    CollapseConsJoin(c, t);
  }

  /** A step of `CollapseAppend`: white space in front of a first piece that
      starts with a word. */
  lemma CollapseAppendEnd(c: char, t: string, y: string)
    requires IsSpace(c) && |t| > 0 && !IsSpace(t[0])
    requires CollapseSpaces(t + y) == CollapseSpaces(t) + CollapseSpaces(y)
    ensures CollapseSpaces([c] + (t + y)) == CollapseSpaces([c] + t) + CollapseSpaces(y)
  {
    var ct, cy := CollapseSpaces(t), CollapseSpaces(y);
    assert (t + y)[0] == t[0];
    CollapseConsEnd(c, t + y);
    CollapseConsEnd(c, t);
    assert " " + (ct + cy) == (" " + ct) + cy;
  }

  /** Collapsing works piece by piece wherever the cut does not fall inside
      a run of white space. */
  lemma {:induction false} CollapseAppend(x: string, y: string)
    requires |x| == 0 || |y| == 0 || !IsSpace(x[|x| - 1]) || !IsSpace(y[0])
    ensures CollapseSpaces(x + y) == CollapseSpaces(x) + CollapseSpaces(y)
  {
    if |x| == 0 {
      assert x + y == y;
    } else {
      var t := x[1..];
      if |t| > 0 {
        assert t[|t| - 1] == x[|x| - 1];
      }
      CollapseAppend(t, y);
      var c := x[0];
      assert x == [c] + t;
      assert x + y == [c] + (t + y);
      if !IsSpace(c) {
        CollapseAppendWord(c, t, y);
      } else if |t| == 0 {
        assert t + y == y;
        CollapseAppendLone(c, y);
      } else if IsSpace(t[0]) {
        CollapseAppendJoin(c, t, y);
      } else {
        CollapseAppendEnd(c, t, y);
      }
    }
  }

  /** A word is left as it is. */
  lemma {:induction false} CollapseWord(x: string)
    requires NoSpace(x)
    ensures CollapseSpaces(x) == x
  {
    if |x| > 0 {
      CollapseWord(x[1..]);
      assert x == [x[0]] + x[1..];
    }
  }

  /** A non-empty run of white space becomes one ordinary space. */
  lemma {:induction false} CollapseRun(w: string)
    requires |w| > 0 && AllSpace(w)
    ensures CollapseSpaces(w) == " "
  {
    if |w| > 1 {
      CollapseRun(w[1..]);
      assert IsSpace(w[1]);
    }
  }

  /** A non-empty run of white space in front of a piece that starts with
      something else becomes one space in front of the collapsed piece. */
  lemma CollapseRunThen(w: string, y: string)
    requires |w| > 0 && AllSpace(w)
    requires |y| == 0 || !IsSpace(y[0])
    ensures CollapseSpaces(w + y) == " " + CollapseSpaces(y)
  {
    CollapseAppend(w, y);
    CollapseRun(w);
  }

  /** A maximal run of white space between two pieces becomes one space,
      and the pieces on either side are collapsed on their own. */
  lemma CollapseBetween(x: string, w: string, y: string)
    requires |w| > 0 && AllSpace(w)
    requires |x| == 0 || !IsSpace(x[|x| - 1])
    requires |y| == 0 || !IsSpace(y[0])
    ensures CollapseSpaces(x + (w + y)) == CollapseSpaces(x) + " " + CollapseSpaces(y)
  {
    CollapseRunThen(w, y);
    assert (w + y)[0] == w[0];
    CollapseAppend(x, w + y);
  }

  lemma {:induction false} AllSpaceHasNoNonSpace(s: string)
    requires AllSpace(s)
    ensures NonSpace(s) == ""
  {
    if |s| > 0 {
      AllSpaceHasNoNonSpace(s[1..]);
    }
  }

  /** A string without edge white space and without any other character
      is empty. */
  lemma NonSpaceOfTrimmed(s: string)
    requires NoEdgeSpace(s) && NonSpace(s) == ""
    ensures s == ""
  {
  }

  /** Collapsing white space keeps a trimmed string trimmed. */
  lemma CollapseKeepsTrimmed(s: string)
    requires NoEdgeSpace(s)
    ensures NoEdgeSpace(CollapseSpaces(s))
  {
    CollapseSpacesCollapsed(s);
  }

  predicate IsDigit(c: char) {
    '0' <= c <= '9'
  }

  predicate AllDigits(s: string) {
    forall i :: 0 <= i < |s| ==> IsDigit(s[i])
  }

  function DigitChar(d: nat): (c: char)
    requires d < 10
    ensures IsDigit(c)
  {
    ['0', '1', '2', '3', '4', '5', '6', '7', '8', '9'][d]
  }

  function DigitValue(c: char): (d: nat)
    requires IsDigit(c)
    ensures d < 10
  {
    (c as int - '0' as int) as nat
  }

  lemma DigitRoundTrip(d: nat)
    requires d < 10
    ensures DigitValue(DigitChar(d)) == d
  {
  }

  lemma DigitNotSpace(c: char)
    requires IsDigit(c)
    ensures !IsSpace(c)
  {
  }

  /** The decimal digits of `n`, without leading zeros. */
  function NatToDecimal(n: nat): (r: string)
    ensures |r| > 0 && AllDigits(r)
    ensures |r| > 1 ==> r[0] != '0'
  {
    if n < 10 then [DigitChar(n)] else NatToDecimal(n / 10) + [DigitChar(n % 10)]
  }

  /** `String(n)` for an integer `n`. */
  function IntToDecimal(n: int): (r: string)
    ensures |r| > 0 && NoEdgeSpace(r)
    ensures forall i :: 0 <= i < |r| ==> IsDigit(r[i]) || r[i] == '-'
  {
    var d := NatToDecimal(if n < 0 then -n else n);
    DigitNotSpace(d[0]);
    DigitNotSpace(d[|d| - 1]);
    if n < 0 then
      var r := "-" + d;
      assert forall i :: 1 <= i < |r| ==> r[i] == d[i - 1];
      r
    else d
  }

  /** The value of a string of decimal digits. */
  function ParseDigits(s: string): nat
    requires AllDigits(s)
  {
    if |s| == 0 then 0 else 10 * ParseDigits(s[..|s| - 1]) + DigitValue(s[|s| - 1])
  }

  /** Reading back the digits of `n` gives `n`. */
  lemma {:induction false} ParseNatToDecimal(n: nat)
    ensures ParseDigits(NatToDecimal(n)) == n
  {
    var s := NatToDecimal(n);
    if n < 10 {
      DigitRoundTrip(n);
    } else {
      assert s[..|s| - 1] == NatToDecimal(n / 10);
      ParseNatToDecimal(n / 10);
      DigitRoundTrip(n % 10);
    }
  }

  /** Rendering the value of a digit string without leading zeros gives the
      string back. */
  lemma {:induction false} NatToDecimalParse(s: string)
    requires |s| > 0 && AllDigits(s)
    requires |s| > 1 ==> s[0] != '0'
    ensures NatToDecimal(ParseDigits(s)) == s
  {
    var n := ParseDigits(s);
    var p := s[..|s| - 1];
    var d := DigitValue(s[|s| - 1]);
    assert DigitChar(d) == s[|s| - 1];
    if |s| == 1 {
      assert n == d;
    } else {
      assert p[0] == s[0];
      NatToDecimalParse(p);
      ParsePositive(p);
      assert n / 10 == ParseDigits(p) && n % 10 == d;
      assert s == p + [s[|s| - 1]];
    }
  }

  /** A digit string that does not start with `0` has a positive value. */
  lemma {:induction false} ParsePositive(s: string)
    requires |s| > 0 && AllDigits(s) && s[0] != '0'
    ensures ParseDigits(s) > 0
  {
    if |s| > 1 {
      assert s[..|s| - 1][0] == s[0];
      ParsePositive(s[..|s| - 1]);
    }
  }
}

=== FILE: js_values.dfy ===
/** The scalar JavaScript values that the tour configuration carries in its
    untyped (`any`) fields, with the three conversions the code applies to
    them: truthiness, string interpolation and `Number(...)`. Numbers are
    integers here. */
module JsValues {
  import opened Wrappers
  import opened JsStrings

  datatype JsVal = Undefined | Null | Bool(b: bool) | Num(n: int) | Str(s: string)

  /** The falsy values among those the model admits (NaN is not a value
      here). */
  const FALSY: set<JsVal> := {Undefined, Null, Bool(false), Num(0), Str("")}

  /** JavaScript truthiness, as `if (v)` and `!v` test it. */
  predicate Truthy(v: JsVal) {
    match v
    case Undefined => false
    case Null => false
    case Bool(b) => b
    case Num(n) => n != 0
    case Str(s) => s != ""
  }

  /** The values that test false are exactly the falsy ones. */
  lemma FalsyValues(v: JsVal)
    ensures !Truthy(v) <==> v in FALSY
  {
  }

  /** `${v}` inside a template literal. */
  function ToJsString(v: JsVal): (r: string)
    ensures v.Undefined? ==> r == "undefined"
    ensures v.Null? ==> r == "null"
    ensures v.Bool? ==> r == (if v.b then "true" else "false")
    ensures v.Num? ==> |r| > 0 && NoEdgeSpace(r) && StringToNumber(r) == Some(v.n)
    ensures v.Str? ==> r == v.s
  {
    match v
    case Undefined => "undefined"
    case Null => "null"
    case Bool(b) => if b then "true" else "false"
    case Num(n) =>
      NumberOfDecimal(n);
      IntToDecimal(n)
    case Str(s) => s
  }

  /** A sign followed by at least one decimal digit. */
  predicate SignedDigits(t: string) {
    |t| > 1 && (t[0] == '-' || t[0] == '+') && AllDigits(t[1..])
  }

  /** The number a trimmed text spells: 0 for the empty text, the value of
      an optionally signed run of decimal digits, NaN (`None`) otherwise. */
  function NumberText(t: string): (r: Option<int>)
    ensures AllDigits(t) ==> r == Some(ParseDigits(t))
    ensures SignedDigits(t) ==>
              r == Some(if t[0] == '-' then 0 - ParseDigits(t[1..]) else ParseDigits(t[1..]))
    ensures r.None? <==> !(AllDigits(t) || SignedDigits(t))
  {
    if SignedDigits(t) then
      var v: int := ParseDigits(t[1..]);
      Some(if t[0] == '-' then -v else v)
    else if AllDigits(t) then Some(ParseDigits(t))
    else None
  }

  /** `Number(s)` for a string, restricted to the integer forms: after
      trimming, the empty string is 0, an optionally signed run of decimal
      digits is its value, and anything else is NaN (`None`). */
  function StringToNumber(s: string): (r: Option<int>)
    ensures Trim(s) == "" ==> r == Some(0)
    ensures AllDigits(Trim(s)) ==> r == Some(ParseDigits(Trim(s)))
    ensures SignedDigits(Trim(s)) ==>
              var t := Trim(s);
              r == Some(if t[0] == '-' then 0 - ParseDigits(t[1..]) else ParseDigits(t[1..]))
    ensures r.None? <==> !(AllDigits(Trim(s)) || SignedDigits(Trim(s)))
  {
    var t := Trim(s);
    NumberText(t)
  }

  /** `Number(v)`; `None` is NaN. */
  function ToNumber(v: JsVal): Option<int> {
    match v
    case Undefined => None
    case Null => Some(0)
    case Bool(b) => Some(if b then 1 else 0)
    case Num(n) => Some(n)
    case Str(s) => StringToNumber(s)
  }

  /** Only `undefined` and non-numeric text are NaN; outside strings, a
      value is truthy exactly when its number is neither NaN nor 0. A
      string is truthy when it is not empty, whatever number it spells. */
  lemma ToNumberTruthiness(v: JsVal)
    ensures ToNumber(v).None? <==> v.Undefined? || (v.Str? && StringToNumber(v.s).None?)
    ensures !v.Str? ==> (Truthy(v) <==> ToNumber(v).Some? && ToNumber(v).value != 0)
    ensures Truthy(Str("0")) && ToNumber(Str("0")) == Some(0)
  {
    TrimKeepsTrimmed("0");
    assert AllDigits("0") && ParseDigits("0") == 0;
  }

  /** `Number(v) || 0`: NaN (and 0) become 0. */
  function NumberOrZero(v: JsVal): (k: int)
    ensures ToNumber(v).None? ==> k == 0
    ensures ToNumber(v).Some? ==> k == ToNumber(v).value
  {
    match ToNumber(v)
    case None => 0
    case Some(n) => n
  }

  /** `Number(String(n)) == n`: the decimal rendering of an integer is read
      back as that integer. */
  lemma NumberOfDecimal(n: int)
    ensures StringToNumber(IntToDecimal(n)) == Some(n)
  {
    var t := IntToDecimal(n);
    TrimKeepsTrimmed(t);
    DecimalText(n);
  }

  /** The decimal text of an integer spells that integer. */
  lemma DecimalText(n: int)
    ensures NumberText(IntToDecimal(n)) == Some(n)
  {
    if n < 0 {
      NegativeText(-n);
    } else {
      ParseNatToDecimal(n);
    }
  }

  /** A minus sign in front of the digits of `n` spells `-n`. */
  lemma NegativeText(n: nat)
    ensures NumberText("-" + NatToDecimal(n)) == Some(0 - n)
  {
    var d := NatToDecimal(n);
    var t := "-" + d;
    assert t[0] == '-' && t[1..] == d;
    assert SignedDigits(t);
    ParseNatToDecimal(n);
  }
}

=== FILE: labels.dfy ===
/** Pieces shared by the dropdown labels of both web part files. */
module Labels {
  import opened Wrappers
  import opened JsStrings
  import opened JsValues

  /** `sec[${section}] col[${column}]`. */
  function LabelPrefix(section: int, column: int): string {
    "sec[" + IntToDecimal(section) + "] col[" + IntToDecimal(column) + "]"
  }

  /** The two numbers can be read back from a prefix: the section's
      between `sec[` and the first `]`, the column's between `] col[` and
      the last `]`. */
  lemma LabelPrefixReadBack(section: int, column: int)
    ensures var r, a := LabelPrefix(section, column), IntToDecimal(section);
            && |r| == |a| + |IntToDecimal(column)| + 11
            && StringToNumber(r[4..4 + |a|]) == Some(section) && r[4 + |a|] == ']'
            && StringToNumber(r[|a| + 10..|r| - 1]) == Some(column)
  {
    PrefixPieces(IntToDecimal(section), IntToDecimal(column));
    NumberOfDecimal(section);
    NumberOfDecimal(column);
  }

  /** The pieces of `sec[<a>] col[<b>]` sit at fixed offsets. */
  lemma PrefixPieces(a: string, b: string)
    ensures var r := "sec[" + a + "] col[" + b + "]";
            && |r| == |a| + |b| + 11
            && r[4..4 + |a|] == a && r[4 + |a|] == ']' && r[|a| + 10..|r| - 1] == b
  {
  }

  /** Texts without `]` between `sec[` and `]` are read back unambiguously. */
  lemma PrefixSplit(a1: string, b1: string, a2: string, b2: string)
    requires forall i :: 0 <= i < |a1| ==> a1[i] != ']'
    requires forall i :: 0 <= i < |a2| ==> a2[i] != ']'
    requires "sec[" + a1 + "] col[" + b1 + "]" == "sec[" + a2 + "] col[" + b2 + "]"
    ensures a1 == a2 && b1 == b2
  {
    var r := "sec[" + a1 + "] col[" + b1 + "]";
    PrefixPieces(a1, b1);
    PrefixPieces(a2, b2);
  }

  lemma DecimalHasNoBracket(n: int)
    ensures forall i :: 0 <= i < |IntToDecimal(n)| ==> IntToDecimal(n)[i] != ']'
  {
  }

  /** Different integers have different decimal texts. */
  lemma DecimalInjective(m: int, n: int)
    requires IntToDecimal(m) == IntToDecimal(n)
    ensures m == n
  {
    NumberOfDecimal(m);
    NumberOfDecimal(n);
  }

  /** Different positions get different prefixes: no section or column
      number runs into the text around it. */
  lemma LabelPrefixInjective(s1: int, c1: int, s2: int, c2: int)
    requires LabelPrefix(s1, c1) == LabelPrefix(s2, c2)
    ensures s1 == s2 && c1 == c2
  {
    var a1, b1, a2, b2 := IntToDecimal(s1), IntToDecimal(c1), IntToDecimal(s2), IntToDecimal(c2);
    DecimalHasNoBracket(s1);
    DecimalHasNoBracket(s2);
    PrefixSplit(a1, b1, a2, b2);
    DecimalInjective(s1, s2);
    DecimalInjective(c1, c2);
  }

  /** `a || b` on two strings. */
  function OrElse(a: string, b: string): (r: string)
    ensures r == a || r == b
    ensures r != "" <==> a != "" || b != ""
    ensures a != "" ==> r == a
  {
    if a != "" then a else b
  }

  /** The first non-empty string of `cands`, or `""` when all are empty:
      what a chain `c0 || c1 || ...` of strings yields. */
  function FirstNonEmpty(cands: seq<string>): (r: string)
    ensures r == "" <==> forall i :: 0 <= i < |cands| ==> cands[i] == ""
  {
    if |cands| == 0 then ""
    else if cands[0] != "" then cands[0]
    else FirstNonEmpty(cands[1..])
  }

  /** A non-empty candidate preceded only by empty ones is the first
      non-empty candidate. */
  lemma {:induction false} FirstNonEmptyAt(cands: seq<string>, i: nat)
    requires i < |cands| && cands[i] != ""
    requires forall j :: 0 <= j < i ==> cands[j] == ""
    ensures FirstNonEmpty(cands) == cands[i]
  {
    if i > 0 {
      FirstNonEmptyAt(cands[1..], i - 1);
    }
  }

  /** A chain of `||` is the first non-empty of its operands. */
  lemma {:induction false} OrElseChain(a: string, rest: seq<string>)
    ensures OrElse(a, FirstNonEmpty(rest)) == FirstNonEmpty([a] + rest)
  {
    assert ([a] + rest)[1..] == rest;
  }

  /** `a || b || c || d || e` is the first non-empty of the five, whichever
      way the chain is grouped. */
  lemma FiveWayChain(a: string, b: string, c: string, d: string, e: string)
    ensures OrElse(OrElse(OrElse(OrElse(a, b), c), d), e) == FirstNonEmpty([a, b, c, d, e])
  {
    var cands := [a, b, c, d, e];
    if a != "" {
      FirstNonEmptyAt(cands, 0);
    } else if b != "" {
      FirstNonEmptyAt(cands, 1);
    } else if c != "" {
      FirstNonEmptyAt(cands, 2);
    } else if d != "" {
      FirstNonEmptyAt(cands, 3);
    } else if e != "" {
      FirstNonEmptyAt(cands, 4);
    }
  }

  /** `a || b` is the first non-empty of the two. */
  lemma TwoWayChain(a: string, b: string)
    ensures OrElse(a, b) == FirstNonEmpty([a, b])
  {
    if a != "" {
      FirstNonEmptyAt([a, b], 0);
    } else if b != "" {
      FirstNonEmptyAt([a, b], 1);
    }
  }
}

=== FILE: polling.dfy ===
/** `TourWebPart.waitForElement`: look the selector up, and while nothing is
    found and `attempts++ < maxAttempts`, wait `delayMs` and look again.
    The page is an oracle: `dom(i)` is what the `i`-th lookup returns. */
module Polling {
  import opened Wrappers
  import opened Dom

  /** The defaults of `waitForElement`, which the dropdown also passes. */
  const DEFAULT_MAX_ATTEMPTS: int := 20
  const DEFAULT_DELAY_MS: nat := 100

  /** How the returned promise ends. A lookup that throws during the first
      check is thrown inside the promise executor and rejects the promise;
      one that throws in a later, timer-driven check escapes to the timer and
      the promise never settles. */
  datatype Settlement<E> = Resolved(value: Option<E>) | Rejected | NeverSettles

  /** The outcome together with the number of lookups and of delays spent. */
  datatype PollRun<E> = PollRun(settlement: Settlement<E>, lookups: nat, delays: nat)

  /** How many lookups a check started with counter `attempts` may still
      make: one, plus one per further allowed retry. */
  function LookupBudget(attempts: nat, maxAttempts: int): nat {
    if attempts < maxAttempts then maxAttempts - attempts + 1 else 1
  }

  /** The lookup that ends a run started at `attempts`. */
  function LastLookup<E>(dom: nat -> DomLookup<E>, attempts: nat, r: PollRun<E>): DomLookup<E>
    requires r.lookups >= 1
  {
    dom(attempts + r.lookups - 1)
  }

  /** One `check()` call with the counter at `attempts`, and the checks it
      schedules. */
  function Check<E>(dom: nat -> DomLookup<E>, attempts: nat, maxAttempts: int): (r: PollRun<E>)
    ensures 1 <= r.lookups <= LookupBudget(attempts, maxAttempts)
    ensures r.delays == r.lookups - 1
    ensures forall j :: attempts <= j < attempts + r.lookups - 1 ==> dom(j).Missing?
    ensures LastLookup(dom, attempts, r).Found? ==>
              r.settlement == Resolved(Some(LastLookup(dom, attempts, r).element))
    ensures LastLookup(dom, attempts, r).Missing? ==>
              r.settlement == Resolved(None) && r.lookups == LookupBudget(attempts, maxAttempts)
    ensures LastLookup(dom, attempts, r).Threw? ==>
              r.settlement == (if attempts + r.lookups - 1 == 0 then Rejected else NeverSettles)
    decreases if attempts < maxAttempts then maxAttempts - attempts else 0
  {
    match dom(attempts)
    case Found(el) => PollRun(Resolved(Some(el)), 1, 0)
    case Threw => PollRun(if attempts == 0 then Rejected else NeverSettles, 1, 0)
    case Missing =>
      if attempts < maxAttempts then
        var rest := Check(dom, attempts + 1, maxAttempts);
        PollRun(rest.settlement, rest.lookups + 1, rest.delays + 1)
      else PollRun(Resolved(None), 1, 0)
  }

  /** `waitForElement(selector, maxAttempts, delayMs)` with the page's answers
      for `selector` given by `dom`. The delay length does not change the
      outcome; the run reports how many delays were taken. */
  function WaitForElement<E>(dom: nat -> DomLookup<E>, maxAttempts: int): (r: PollRun<E>)
    ensures 1 <= r.lookups <= (if maxAttempts > 0 then maxAttempts else 0) + 1
    ensures r.delays == r.lookups - 1
    ensures dom(0).Found? ==> r == PollRun(Resolved(Some(dom(0).element)), 1, 0)
    ensures r.settlement == Rejected <==> dom(0).Threw?
  {
    Check(dom, 0, maxAttempts)
  }

  /** `null` comes back exactly when every one of the `maxAttempts + 1`
      lookups (one when `maxAttempts <= 0`) found nothing. */
  lemma NullIffAllMissed<E>(dom: nat -> DomLookup<E>, maxAttempts: int)
    ensures WaitForElement(dom, maxAttempts).settlement == Resolved(None)
            <==> forall j :: 0 <= j < LookupBudget(0, maxAttempts) ==> dom(j).Missing?
  {
    var r := WaitForElement(dom, maxAttempts);
    var last := r.lookups - 1;
    if r.settlement == Resolved(None) {
      assert LastLookup(dom, 0, r) == dom(last);
    }
  }

  /** When some lookup within the budget finds an element and every lookup
      before it found nothing, that element is the result, after that many
      lookups. */
  lemma FirstHitWins<E>(dom: nat -> DomLookup<E>, maxAttempts: int, i: nat, el: E)
    requires i < LookupBudget(0, maxAttempts)
    requires dom(i) == Found(el)
    requires forall j :: 0 <= j < i ==> dom(j).Missing?
    ensures WaitForElement(dom, maxAttempts) == PollRun(Resolved(Some(el)), i + 1, i)
  {
    var r := WaitForElement(dom, maxAttempts);
    assert LastLookup(dom, 0, r) == dom(r.lookups - 1);
  }

  /** With the defaults and an element that never renders, the loop makes
      21 lookups and 20 delays of 100 ms: the post-increment in
      `attempts++ < maxAttempts` allows one lookup more than `maxAttempts`. */
  lemma DefaultsMakeOneExtraLookup<E>(dom: nat -> DomLookup<E>)
    requires forall j :: dom(j) == Missing
    ensures var r := WaitForElement(dom, DEFAULT_MAX_ATTEMPTS);
            && r.settlement == Resolved(None) && r.lookups == 21 && r.delays == 20
            && r.delays * DEFAULT_DELAY_MS == 2000
  {
    NeverRenderedPositive(dom, DEFAULT_MAX_ATTEMPTS);
  }

  /** The never-rendered run when `maxAttempts` is positive. */
  lemma NeverRenderedPositive<E>(dom: nat -> DomLookup<E>, m: int)
    requires m > 0 && forall j :: dom(j) == Missing
    ensures WaitForElement(dom, m) == PollRun(Resolved(None), m + 1, m)
  {
    NeverRenderedRun(dom, m);
  }

  /** An element that never renders costs `max(maxAttempts, 0) + 1` lookups
      and one delay fewer before the promise resolves to `null`. */
  lemma NeverRenderedRun<E>(dom: nat -> DomLookup<E>, maxAttempts: int)
    requires forall j :: dom(j) == Missing
    ensures var n := if maxAttempts > 0 then maxAttempts else 0;
            WaitForElement(dom, maxAttempts) == PollRun(Resolved(None), n + 1, n)
  {
    var r := WaitForElement(dom, maxAttempts);
    assert LastLookup(dom, 0, r) == Missing;
  }
}

=== FILE: site_page.dfy ===
/** The client-side page as `ClientSidePage.fromFile` returns it: sections of
    columns of controls. Both web part files walk it section by section,
    column by column, control by control; `Placements` is that walk. */
module SitePage {
  import opened Wrappers

  /** `control.data.webPartData`; `None` fields are `null` or `undefined`. */
  datatype WebPartData = WebPartData(instanceId: Option<string>, title: Option<string>)
  datatype ControlData = ControlData(id: string, webPartData: Option<WebPartData>)
  datatype Control = Control(data: ControlData)
  /** A column or section `order` is a JavaScript number; it is modelled as
      an integer, which is rendered as JavaScript does while its magnitude
      is below 1e21. */
  datatype Column = Column(order: int, controls: seq<Control>)
  datatype Section = Section(order: int, columns: seq<Column>)
  datatype Page = Page(sections: seq<Section>)

  /** A control together with the `order` of its section and column. */
  datatype Placement = Placement(section: int, column: int, control: Control)

  function ControlsIn(cols: seq<Column>): nat {
    if |cols| == 0 then 0 else |cols[0].controls| + ControlsIn(cols[1..])
  }

  /** The number of controls on the page. */
  function ControlCount(secs: seq<Section>): nat {
    if |secs| == 0 then 0 else ControlsIn(secs[0].columns) + ControlCount(secs[1..])
  }

  /** The controls of columns `cols` of a section with order `sec`, in order. */
  function ColumnsWalk(sec: int, cols: seq<Column>): (r: seq<Placement>)
    ensures |r| == ControlsIn(cols)
    ensures forall p :: p in r ==> p.section == sec
    ensures forall c, k :: 0 <= c < |cols| && 0 <= k < |cols[c].controls| ==>
              Placement(sec, cols[c].order, cols[c].controls[k]) in r
  {
    if |cols| == 0 then []
    else
      var here := ColumnPlacements(sec, cols[0]);
      var rest := ColumnsWalk(sec, cols[1..]);
      assert forall c, k :: 1 <= c < |cols| && 0 <= k < |cols[c].controls| ==>
               Placement(sec, cols[c].order, cols[c].controls[k]) in rest by {
        forall c, k | 1 <= c < |cols| && 0 <= k < |cols[c].controls|
          ensures Placement(sec, cols[c].order, cols[c].controls[k]) in rest
        {
          assert cols[1..][c - 1] == cols[c];
        }
      }
      assert forall k :: 0 <= k < |cols[0].controls| ==>
               Placement(sec, cols[0].order, cols[0].controls[k]) in here by {
        forall k | 0 <= k < |cols[0].controls|
          ensures Placement(sec, cols[0].order, cols[0].controls[k]) in here
        {
          assert here[k] == Placement(sec, cols[0].order, cols[0].controls[k]);
        }
      }
      here + rest
  }

  /** The controls of one column, in the column's order. */
  function ColumnPlacements(sec: int, c: Column): (r: seq<Placement>)
    ensures |r| == |c.controls|
    ensures forall k :: 0 <= k < |r| ==> r[k].section == sec && r[k].column == c.order && r[k].control == c.controls[k]
  {
    seq(|c.controls|, k requires 0 <= k < |c.controls| => Placement(sec, c.order, c.controls[k]))
  }

  /** Walking one column visits its controls in order. */
  lemma ColumnsWalkOne(sec: int, c: Column)
    ensures ColumnsWalk(sec, [c]) == ColumnPlacements(sec, c)
  {
    assert [c][1..] == [];
  }

  /** The columns of a section are walked in order: walking two runs of
      columns is walking the first and then the second. */
  lemma {:induction false} ColumnsWalkAppend(sec: int, a: seq<Column>, b: seq<Column>)
    ensures ColumnsWalk(sec, a + b) == ColumnsWalk(sec, a) + ColumnsWalk(sec, b)
  {
    if |a| == 0 {
      assert a + b == b;
    } else {
      assert (a + b)[0] == a[0];
      assert (a + b)[1..] == a[1..] + b;
      ColumnsWalkAppend(sec, a[1..], b);
    }
  }

  /** The `forEach` walk over `secs`: one placement per control, section by
      section, column by column. */
  function Placements(secs: seq<Section>): (r: seq<Placement>)
    ensures |r| == ControlCount(secs)
    ensures forall s, c, k ::
              (0 <= s < |secs| && 0 <= c < |secs[s].columns| && 0 <= k < |secs[s].columns[c].controls|) ==>
              Placement(secs[s].order, secs[s].columns[c].order, secs[s].columns[c].controls[k]) in r
  {
    if |secs| == 0 then []
    else
      var rest := Placements(secs[1..]);
      assert forall s :: 1 <= s < |secs| ==> secs[1..][s - 1] == secs[s];
      ColumnsWalk(secs[0].order, secs[0].columns) + rest
  }

  /** The walk visits the sections in page order: walking two runs of
      sections is walking the first and then the second. */
  lemma {:induction false} PlacementsAppend(a: seq<Section>, b: seq<Section>)
    ensures Placements(a + b) == Placements(a) + Placements(b)
  {
    if |a| == 0 {
      assert a + b == b;
    } else {
      assert (a + b)[1..] == a[1..] + b;
      PlacementsAppend(a[1..], b);
    }
  }

  /** A single section is walked column by column. */
  lemma PlacementsOne(s: Section)
    ensures Placements([s]) == ColumnsWalk(s.order, s.columns)
  {
    assert [s][1..] == [];
  }
}

=== FILE: step_order.dfy ===
/** The ordering `Tour.initializeTourWithRetry` applies to a copy of
    `collectionData` before compiling it: ascending by `Number(sequence) || 0`.
    `Array.prototype.sort` is stable, so entries with the same key keep their
    list order; the model sorts by stable insertion. */
module StepOrder {
  import opened JsValues
  import opened TourHelper

  /** `Number(a.sequence) || 0`. */
  function SortKey(e: ConfigEntry): int {
    NumberOrZero(e.sequence)
  }

  predicate SortedByKey(s: seq<ConfigEntry>) {
    forall i, j :: 0 <= i < j < |s| ==> SortKey(s[i]) <= SortKey(s[j])
  }

  /** The entries of `s` whose key is `k`, in list order. */
  function WithKey(s: seq<ConfigEntry>, k: int): seq<ConfigEntry> {
    if |s| == 0 then [] else (if SortKey(s[0]) == k then [s[0]] else []) + WithKey(s[1..], k)
  }

  /** Places `x` in front of the first entry of `t` whose key is not
      smaller, so `x` precedes every entry of `t` with the same key. */
  function Insert(x: ConfigEntry, t: seq<ConfigEntry>): (r: seq<ConfigEntry>)
    ensures |r| == |t| + 1
    ensures multiset(r) == multiset{x} + multiset(t)
  {
    if |t| == 0 || SortKey(x) <= SortKey(t[0]) then [x] + t
    else
      assert t == [t[0]] + t[1..];
      [t[0]] + Insert(x, t[1..])
  }

  /** Insertion keeps a sorted list sorted. */
  lemma {:induction false} InsertSorted(x: ConfigEntry, t: seq<ConfigEntry>)
    requires SortedByKey(t)
    ensures SortedByKey(Insert(x, t))
  {
    if |t| > 0 && SortKey(x) > SortKey(t[0]) {
      var rest := Insert(x, t[1..]);
      InsertSorted(x, t[1..]);
      forall j | 0 <= j < |rest|
        ensures SortKey(t[0]) <= SortKey(rest[j])
      {
        assert rest[j] in multiset(rest);
        if rest[j] != x {
          assert rest[j] in multiset(t[1..]);
          var m :| 0 <= m < |t[1..]| && t[1..][m] == rest[j];
          assert t[1..][m] == t[m + 1];
        }
      }
    }
  }

  /** Insertion puts `x` ahead of the entries of `t` that share its key and
      leaves every other key's entries as they were. */
  lemma {:induction false} InsertWithKey(x: ConfigEntry, t: seq<ConfigEntry>, k: int)
    ensures WithKey(Insert(x, t), k) == (if SortKey(x) == k then [x] else []) + WithKey(t, k)
  {
    if |t| == 0 || SortKey(x) <= SortKey(t[0]) {
      WithKeyCons(x, t, k);
    } else {
      var rest := Insert(x, t[1..]);
      assert Insert(x, t) == [t[0]] + rest;
      WithKeyCons(t[0], rest, k);
      InsertWithKey(x, t[1..], k);
      WithKeyCons(t[0], t[1..], k);
      assert t == [t[0]] + t[1..];
    }
  }

  /** The entries with key `k` of a list with `x` in front. */
  lemma WithKeyCons(x: ConfigEntry, t: seq<ConfigEntry>, k: int)
    ensures WithKey([x] + t, k) == (if SortKey(x) == k then [x] else []) + WithKey(t, k)
  {
    assert ([x] + t)[1..] == t;
  }

  /** Insertion adds one enabled entry exactly when `x` is enabled. */
  lemma {:induction false} InsertCount(x: ConfigEntry, t: seq<ConfigEntry>)
    ensures CountEnabled(Insert(x, t)) == CountEnabled(t) + (if IsEnabled(x) then 1 else 0)
  {
    var r := Insert(x, t);
    if |t| == 0 || SortKey(x) <= SortKey(t[0]) {
      assert r[1..] == t;
    } else {
      assert r[1..] == Insert(x, t[1..]);
      InsertCount(x, t[1..]);
    }
  }

  /** The sorted copy of the configuration list. */
  function SortBySequence(s: seq<ConfigEntry>): (r: seq<ConfigEntry>)
    ensures multiset(r) == multiset(s)
    ensures SortedByKey(r)
    ensures forall k :: WithKey(r, k) == WithKey(s, k)
    ensures CountEnabled(r) == CountEnabled(s)
  {
    if |s| == 0 then []
    else
      var rest := SortBySequence(s[1..]);
      assert s == [s[0]] + s[1..];
      InsertSorted(s[0], rest);
      InsertCount(s[0], rest);
      assert forall k :: WithKey(Insert(s[0], rest), k) == WithKey(s, k) by {
        forall k
          ensures WithKey(Insert(s[0], rest), k) == WithKey(s, k)
        {
          InsertWithKey(s[0], rest, k);
        }
      }
      Insert(s[0], rest)
  }

  /** The authoring form stores the order in `Position` and never writes
      `sequence`: with no entry carrying a `sequence`, every key is 0 and the
      sorted copy is the list in its authored order. */
  lemma {:induction false} PositionDoesNotReorder(s: seq<ConfigEntry>)
    requires forall i :: 0 <= i < |s| ==> s[i].sequence == Undefined
    ensures SortBySequence(s) == s
  {
    if |s| > 0 {
      PositionDoesNotReorder(s[1..]);
      assert s == [s[0]] + s[1..];
    }
  }

  /** A `sequence` written as a decimal string sorts by the number it spells. */
  lemma DecimalSequenceKey(e: ConfigEntry, n: int)
    requires e.sequence == Str(JsStrings.IntToDecimal(n))
    ensures SortKey(e) == n
  {
    NumberOfDecimal(n);
  }
}

=== FILE: tour_component.dfy ===
/** The `Tour` React component as a state machine over `{steps, tourDisabled}`:
    the constructor, `componentDidMount`, `componentDidUpdate` and
    `initializeTourWithRetry`, with `getElement`. */
module TourComponent {
  import opened Wrappers
  import opened JsValues
  import opened Dom
  import opened TourHelper
  import opened StepOrder

  const MAX_ATTEMPTS: nat := 5
  const DELAY_MS: nat := 500

  /** `ITourState`. The `url` and `elementType` step fields are never set. */
  datatype TourState = TourState(steps: seq<Step>, tourDisabled: bool)

  const Disabled := TourState([], true)

  /** The button is disabled exactly when there is no step to show. */
  predicate Consistent(s: TourState) {
    s.tourDisabled <==> s.steps == []
  }

  /** What the component should show for `collectionData` value `c`: the
      compiled steps of the sorted copy, or nothing for a non-array. */
  function Expected(c: Collection): TourState {
    var steps := if c.Array? then GetTourSteps(Some(SortBySequence(c.items))) else [];
    TourState(steps, steps == [])
  }

  /** The state the constructor sets. */
  function InitialState(): (r: TourState)
    ensures Consistent(r) && r.tourDisabled
    ensures forall v :: r == Expected(NotArray(v))
  {
    TourState([], true)
  }

  /** Where a run of `initializeTourWithRetry` stopped: the attempt that
      settled, how many retries were scheduled and the delay they add up to. */
  datatype Settled = Settled(attempt: nat, retries: nat, waitedMs: nat)

  /** Every attempt from `from` up to, not including, `to` was unready and
      below the cap. */
  predicate SkippedUnready(ready: nat -> bool, from: nat, to: nat) {
    forall a: nat :: from <= a < to ==> !ready(a) && a < MAX_ATTEMPTS
  }

  /** The retry policy of `initializeTourWithRetry`, for any answer `ready(a)`
      to the readiness test `rawSteps` at attempt `a`: settle on the first
      ready attempt, or on attempt `MAX_ATTEMPTS`, waiting `DELAY_MS` before
      each retry. */
  function RetryLoop(ready: nat -> bool, attempt: nat): (r: Settled)
    ensures attempt <= r.attempt && r.retries == r.attempt - attempt
    ensures r.waitedMs == r.retries * DELAY_MS
    ensures ready(r.attempt) || r.attempt >= MAX_ATTEMPTS
    ensures SkippedUnready(ready, attempt, r.attempt)
    decreases if attempt < MAX_ATTEMPTS then MAX_ATTEMPTS - attempt else 0
  {
    if ready(attempt) || attempt >= MAX_ATTEMPTS then Settled(attempt, 0, 0)
    else
      var r := RetryLoop(ready, attempt + 1);
      Settled(r.attempt, r.retries + 1, r.waitedMs + DELAY_MS)
  }

  /** When the readiness test never passes, a loop entered at `attempt`
      gives up on attempt `MAX_ATTEMPTS`, after `MAX_ATTEMPTS - attempt`
      retries of 500 ms each (2500 ms from attempt 0). */
  lemma {:induction false} RetryLoopExhausts(ready: nat -> bool, attempt: nat)
    requires attempt <= MAX_ATTEMPTS
    requires forall a :: !ready(a)
    ensures RetryLoop(ready, attempt) == Settled(MAX_ATTEMPTS, MAX_ATTEMPTS - attempt, (MAX_ATTEMPTS - attempt) * DELAY_MS)
    decreases MAX_ATTEMPTS - attempt
  {
    if attempt < MAX_ATTEMPTS {
      RetryLoopExhausts(ready, attempt + 1);
    }
  }

  datatype InitRun = InitRun(state: TourState, settled: Settled)

  /** `initializeTourWithRetry(attempt)` for `collectionData` value `data`.
      The readiness test is the truthiness of the compiled `rawSteps`, an
      array, and every array is truthy in JavaScript, even an empty one. */
  function InitializeTourWithRetry(data: Collection, attempt: nat): (r: InitRun)
    ensures r.settled == Settled(attempt, 0, 0)
    ensures !data.Array? ==> r.state == TourState([], true)
    ensures data.Array? ==> r.state.steps == GetTourSteps(Some(SortBySequence(data.items)))
    ensures r.state == Expected(data)
  {
    if !data.Array? then InitRun(Disabled, Settled(attempt, 0, 0))
    else
      var sortedSettings := SortBySequence(data.items);
      var rawSteps := GetTourSteps(Some(sortedSettings));
      var settled := RetryLoop(a => true, attempt);
      if |rawSteps| > 0 then InitRun(TourState(rawSteps, false), settled)
      else InitRun(Disabled, settled)
  }

  /** `componentDidMount`, from the state `s` the constructor left. */
  function ComponentDidMount(props: Collection, s: TourState): (r: TourState)
    ensures r == Expected(props) && Consistent(r)
  {
    if props.Array? then InitializeTourWithRetry(props, 0).state else Disabled
  }

  /** `JSON.stringify(a) !== JSON.stringify(b)`, for the values the model
      admits: two collections serialise alike exactly when they are equal. */
  predicate JsonDiffers(a: Collection, b: Collection) {
    a != b
  }

  /** `componentDidUpdate(prevProps)` with the new `collectionData` `cur`. */
  function ComponentDidUpdate(prev: Collection, cur: Collection, s: TourState): (r: TourState)
    ensures s == Expected(prev) ==> r == Expected(cur)
    ensures r != s ==> (cur.Array? && cur != prev) || (!cur.Array? && prev.Array?)
    ensures cur == prev ==> r == s
    ensures prev.Array? && !cur.Array? ==> r == Disabled
  {
    if cur.Array? && JsonDiffers(cur, prev) then InitializeTourWithRetry(cur, 0).state
    else if !cur.Array? && prev.Array? then Disabled
    else s
  }

  /** The state after construction, mounting with `props[0]` and one update
      per later value. */
  function Lifecycle(props: seq<Collection>): TourState
    requires |props| > 0
  {
    if |props| == 1 then ComponentDidMount(props[0], InitialState())
    else
      var n := |props|;
      ComponentDidUpdate(props[n - 2], props[n - 1], Lifecycle(props[..n - 1]))
  }

  /** Whatever the history of `collectionData`, the component shows the
      steps compiled from its latest value, and its button is enabled
      exactly when there is a step. */
  lemma {:induction false} LifecycleShowsLatest(props: seq<Collection>)
    requires |props| > 0
    ensures Lifecycle(props) == Expected(props[|props| - 1])
    ensures Consistent(Lifecycle(props))
  {
    var n := |props|;
    if n > 1 {
      LifecycleShowsLatest(props[..n - 1]);
      assert props[..n - 1][n - 2] == props[n - 2];
    }
  }

  /** The tour button is enabled for an array exactly when some entry is
      enabled: sorting neither adds nor drops entries. */
  lemma TourEnabledIffSomeEntryEnabled(items: seq<ConfigEntry>)
    ensures !Expected(Array(items)).tourDisabled <==> exists i :: 0 <= i < |items| && IsEnabled(items[i])
  {
    CountEnabledZero(items);
  }

  /** `getElement(selector)`: a lookup that throws yields `null`. */
  function GetElement<E>(lookup: DomLookup<E>): (r: Option<E>)
    ensures r.Some? <==> lookup.Found?
    ensures lookup.Found? ==> r.value == lookup.element
  {
    match lookup
    case Found(el) => Some(el)
    case Missing => None
    case Threw => None
  }
}

=== FILE: tour_helper.dfy ===
/** The authored tour configuration and the step compiler
    (`TourHelper.getTourSteps`): keep the enabled entries, in list order, and
    give each one a selector for the web part instance it targets. */
module TourHelper {
  import opened Wrappers
  import opened JsValues

  /** One row of `collectionData` as the property pane stores it. Absent
      fields are `Undefined`. `sequence` is the field the component sorts by;
      the authoring form writes `Position` instead. */
  datatype ConfigEntry = ConfigEntry(
    id: JsVal,
    WebPart: JsVal,
    StepDescription: JsVal,
    Position: JsVal,
    Enabled: JsVal,
    sequence: JsVal)

  /** The `collectionData` property: an array of entries, or some other
      (non-array) value such as `undefined` or `null`. */
  datatype Collection = Array(items: seq<ConfigEntry>) | NotArray(value: JsVal)

  /** A compiled step: what the tour button keeps in its state. */
  datatype Step = Step(id: JsVal, selector: string, content: JsVal)

  /** The attribute selector both web part files open their queries with. */
  const INSTANCE_ATTR := "[data-sp-feature-instance-id="

  /** The instance id a selector `[data-sp-feature-instance-id=<q>id<q>]`
      asks for, with `q` the quote character; `None` for any other text. */
  function SelectedId(sel: string, q: char): Option<string> {
    var n := |INSTANCE_ATTR|;
    if |sel| >= n + 3 && sel[..n] == INSTANCE_ATTR && sel[n] == q && sel[|sel| - 2] == q && sel[|sel| - 1] == ']'
    then Some(sel[n + 1..|sel| - 2])
    else None
  }

  /** The query for the element that renders web part instance `webPart`:
      the interpolated value in single quotes. The value is read back from
      it unchanged, so different ids give different queries. */
  function InstanceSelector(webPart: JsVal): (r: string)
    ensures SelectedId(r, '\'') == Some(ToJsString(webPart))
  {
    SelectorRoundTrip('\'', ToJsString(webPart));
    INSTANCE_ATTR + "'" + ToJsString(webPart) + "']"
  }

  /** An id quoted with `q` inside the attribute selector is read back. */
  lemma SelectorRoundTrip(q: char, id: string)
    ensures SelectedId(INSTANCE_ATTR + [q] + id + [q, ']'], q) == Some(id)
  {
    var r := INSTANCE_ATTR + [q] + id + [q, ']'];
    assert r[..|INSTANCE_ATTR|] == INSTANCE_ATTR;
    assert r[|INSTANCE_ATTR| + 1..|r| - 2] == id;
  }

  /** An entry whose `WebPart` was never set targets the instance id
      `undefined`. */
  lemma UnsetWebPartSelector()
    ensures SelectedId(InstanceSelector(Undefined), '\'') == Some("undefined")
  {
  }

  predicate IsEnabled(e: ConfigEntry) {
    Truthy(e.Enabled)
  }

  /** The positions of the enabled entries of `s`, in increasing order. */
  function EnabledIndices(s: seq<ConfigEntry>): (r: seq<nat>)
    ensures forall k :: 0 <= k < |r| ==> r[k] < |s| && IsEnabled(s[r[k]])
    ensures forall k, l :: 0 <= k < l < |r| ==> r[k] < r[l]
    ensures forall i :: 0 <= i < |s| && IsEnabled(s[i]) ==> i in r
  {
    if |s| == 0 then []
    else
      var p := EnabledIndices(s[..|s| - 1]);
      assert forall k :: 0 <= k < |p| ==> s[..|s| - 1][p[k]] == s[p[k]];
      if IsEnabled(s[|s| - 1]) then p + [|s| - 1] else p
  }

  /** The number of enabled entries, counted from the front. */
  function CountEnabled(s: seq<ConfigEntry>): nat {
    if |s| == 0 then 0 else (if IsEnabled(s[0]) then 1 else 0) + CountEnabled(s[1..])
  }

  lemma {:induction false} CountEnabledAppend(a: seq<ConfigEntry>, b: seq<ConfigEntry>)
    ensures CountEnabled(a + b) == CountEnabled(a) + CountEnabled(b)
  {
    if |a| == 0 {
      assert a + b == b;
    } else {
      assert (a + b)[1..] == a[1..] + b;
      CountEnabledAppend(a[1..], b);
    }
  }

  /** There is one enabled position per enabled entry. */
  lemma {:induction false} CountEnabledIndices(s: seq<ConfigEntry>)
    ensures |EnabledIndices(s)| == CountEnabled(s)
  {
    if |s| > 0 {
      var p := s[..|s| - 1];
      CountEnabledIndices(p);
      CountEnabledAppend(p, [s[|s| - 1]]);
      assert p + [s[|s| - 1]] == s;
    }
  }

  /** No enabled positions exactly when no entry is enabled. */
  lemma CountEnabledZero(s: seq<ConfigEntry>)
    ensures CountEnabled(s) == 0 <==> forall i :: 0 <= i < |s| ==> !IsEnabled(s[i])
  {
    CountEnabledIndices(s);
    var r := EnabledIndices(s);
    if |r| > 0 {
      assert IsEnabled(s[r[0]]);
    }
  }

  /** The step `getTourSteps` pushes for entry `e`. */
  function StepOf(e: ConfigEntry): Step {
    Step(e.id, InstanceSelector(e.WebPart), e.StepDescription)
  }

  /** The steps for the enabled entries of `s`, built front to back as the
      `forEach`/`push` loop does. */
  function CompileEnabled(s: seq<ConfigEntry>): (r: seq<Step>)
    ensures |r| == |EnabledIndices(s)|
    ensures forall k :: 0 <= k < |r| ==> r[k] == StepOf(s[EnabledIndices(s)[k]])
  {
    if |s| == 0 then []
    else
      var p := s[..|s| - 1];
      var last := s[|s| - 1];
      var rest := CompileEnabled(p);
      CompileEnabledStep(s, rest);
      if IsEnabled(last) then rest + [StepOf(last)] else rest
  }

  /** The inductive step of `CompileEnabled`: the steps of all but the last
      entry stay in place when the last entry is added. */
  lemma CompileEnabledStep(s: seq<ConfigEntry>, rest: seq<Step>)
    requires |s| > 0
    requires |rest| == |EnabledIndices(s[..|s| - 1])|
    requires forall k :: 0 <= k < |rest| ==> rest[k] == StepOf(s[..|s| - 1][EnabledIndices(s[..|s| - 1])[k]])
    ensures var r := if IsEnabled(s[|s| - 1]) then rest + [StepOf(s[|s| - 1])] else rest;
            |r| == |EnabledIndices(s)| && forall k :: 0 <= k < |r| ==> r[k] == StepOf(s[EnabledIndices(s)[k]])
  {
    var p := s[..|s| - 1];
    var pi := EnabledIndices(p);
    var si := EnabledIndices(s);
    assert si == if IsEnabled(s[|s| - 1]) then pi + [|s| - 1] else pi;
    forall k | 0 <= k < |pi|
      ensures rest[k] == StepOf(s[si[k]])
    {
      assert si[k] == pi[k];
      assert p[pi[k]] == s[pi[k]];
    }
  }

  /** `TourHelper.getTourSteps(settings)`. `None` is a `null` or `undefined`
      list. For a list of entry objects it never fails (an item that is
      `null` or a primitive would make `ele.Enabled` throw, and such items
      are outside the model), and it does not consult the page: every
      enabled entry gets a step whether or not its target is rendered. */
  function GetTourSteps(settings: Option<seq<ConfigEntry>>): (r: seq<Step>)
    ensures settings.None? ==> r == []
    ensures settings.Some? ==>
              var s := settings.value;
              && |r| == |EnabledIndices(s)| == CountEnabled(s)
              && (forall k :: 0 <= k < |r| ==>
                    var e := s[EnabledIndices(s)[k]];
                    && IsEnabled(e)
                    && r[k].id == e.id
                    && r[k].content == e.StepDescription
                    && r[k].selector == "[data-sp-feature-instance-id='" + ToJsString(e.WebPart) + "']")
  {
    match settings
    case None => []
    case Some(s) =>
      CountEnabledIndices(s);
      CompiledFields(s);
      if |s| > 0 then CompileEnabled(s) else []
  }

  /** Each compiled step carries its entry's id and description and the
      quoted instance selector of its `WebPart`. */
  lemma CompiledFields(s: seq<ConfigEntry>)
    ensures var r := CompileEnabled(s);
            forall k :: 0 <= k < |r| ==>
              var e := s[EnabledIndices(s)[k]];
              && IsEnabled(e)
              && r[k].id == e.id
              && r[k].content == e.StepDescription
              && r[k].selector == "[data-sp-feature-instance-id='" + ToJsString(e.WebPart) + "']"
  {
    var r := CompileEnabled(s);
    assert INSTANCE_ATTR + "'" == "[data-sp-feature-instance-id='";
    forall k | 0 <= k < |r|
      ensures r[k].selector == "[data-sp-feature-instance-id='" + ToJsString(s[EnabledIndices(s)[k]].WebPart) + "']"
    {
      var w := s[EnabledIndices(s)[k]].WebPart;
      assert r[k].selector == InstanceSelector(w);
    }
  }

  /** Output order is input order: the step compiled from an earlier
      enabled entry comes before the step compiled from a later one. */
  lemma StepsFollowListOrder(s: seq<ConfigEntry>, i: nat, j: nat)
    requires i < j < |s| && IsEnabled(s[i]) && IsEnabled(s[j])
    ensures exists k, l :: 0 <= k < l < |GetTourSteps(Some(s))|
              && EnabledIndices(s)[k] == i && EnabledIndices(s)[l] == j
  {
    var r := EnabledIndices(s);
    CountEnabledIndices(s);
    var k :| 0 <= k < |r| && r[k] == i;
    var l :| 0 <= l < |r| && r[l] == j;
    assert |GetTourSteps(Some(s))| == |r|;
  }

  /** Disabled entries contribute nothing: appending one leaves the
      compiled steps unchanged. */
  lemma {:induction false} DisabledEntriesIgnored(s: seq<ConfigEntry>, e: ConfigEntry)
    requires !IsEnabled(e)
    ensures GetTourSteps(Some(s + [e])) == GetTourSteps(Some(s))
  {
    assert (s + [e])[..|s|] == s;
    CountEnabledIndices(s);
    CountEnabledIndices(s + [e]);
  }
}

=== FILE: tour_web_part_ts.dfy ===
/** The web part of `TourWebPart.ts`: its `GetAllWebpart`, which labels
    every control with a preview of its rendered text, and its keep-first
    de-duplication. It differs from `TourWebPart.tsx` in its defaults: `??`
    where the other uses `||`, and titles that are not trimmed. */
module TourWebPartTs {
  import opened Wrappers
  import opened JsStrings
  import opened JsValues
  import opened TourHelper
  import opened Dom
  import opened SitePage
  import opened Labels
  import opened Dedup
  import opened TourWebPartTsx

  const PREVIEW_LIMIT: nat := 60
  const ELLIPSIS: char := '\U{2026}'

  /** One dropdown choice: the instance id and its label. */
  datatype Choice = Choice(key: string, text: string)

  function ChoiceKey(c: Choice): string {
    c.key
  }

  /** `control.data.webPartData?.instanceId ?? control.data.id`. */
  function InstanceIdTs(d: ControlData): (r: string)
    ensures d.webPartData.Some? && d.webPartData.value.instanceId.Some? ==> r == d.webPartData.value.instanceId.value
    ensures d.webPartData.None? || d.webPartData.value.instanceId.None? ==> r == d.id
  {
    match d.webPartData
    case None => d.id
    case Some(w) => if w.instanceId.Some? then w.instanceId.value else d.id
  }

  /** `webPartData.title ?? "(untitled)"`, or `"Webpart"` for a control
      without web part data. */
  function TitleTs(d: ControlData): (r: string)
    ensures d.webPartData.None? ==> r == "Webpart"
    ensures d.webPartData.Some? && d.webPartData.value.title.None? ==> r == "(untitled)"
    ensures d.webPartData.Some? && d.webPartData.value.title.Some? ==> r == d.webPartData.value.title.value
  {
    match d.webPartData
    case None => "Webpart"
    case Some(w) =>
      match w.title
      case None => "(untitled)"
      case Some(t) => t
  }

  /** `domEl.textContent.trim().replace(/\s+/g, " ")`. */
  function RawText(e: ElementView): (r: string)
    ensures NoEdgeSpace(r) && SingleSpaced(r)
    ensures NonSpace(r) == NonSpace(e.text)
  {
    var t := Trim(e.text);
    CollapseSpacesCollapsed(t);
    CollapseKeepsTrimmed(t);
    CollapseSpaces(t)
  }

  /** The heading a preview is read from:
      `domEl.querySelector('h1,h2,h3,h4,h5,.ms-webpart-titleText')`, when
      its text is not empty. */
  predicate HasHeadingText(e: ElementView) {
    FirstHeading(e.headings, 5).Some? && FirstHeading(e.headings, 5).value.text != ""
  }

  /** A preview heading exists exactly when the first descendant matching
      `h1`..`h5` or the title class has non-empty text; later matches are
      never consulted. */
  lemma HeadingTextIsFirstMatch(e: ElementView)
    ensures HasHeadingText(e) <==>
              exists i :: 0 <= i < |e.headings| && MatchesHeading(e.headings[i], 5) && e.headings[i].text != ""
                          && forall j :: 0 <= j < i ==> !MatchesHeading(e.headings[j], 5)
  {
    var hs := e.headings;
    if HasHeadingText(e) {
      var i :| 0 <= i < |hs| && hs[i] == FirstHeading(hs, 5).value && MatchesHeading(hs[i], 5)
               && forall j :: 0 <= j < i ==> !MatchesHeading(hs[j], 5);
      assert hs[i].text != "";
    } else if FirstHeading(hs, 5).Some? {
      var i :| 0 <= i < |hs| && hs[i] == FirstHeading(hs, 5).value && MatchesHeading(hs[i], 5)
               && forall j :: 0 <= j < i ==> !MatchesHeading(hs[j], 5);
      forall k | 0 <= k < |hs| && MatchesHeading(hs[k], 5) && hs[k].text != ""
        ensures exists j :: 0 <= j < k && MatchesHeading(hs[j], 5)
      {
        if k > i {
          assert MatchesHeading(hs[i], 5);
        }
      }
    }
  }

  /** Unlike the heading query of `TourWebPart.tsx`, this one leaves out
      `h6`: an element whose only heading is an `h6` gets no preview heading
      here, while the other file labels it with that heading's text. */
  lemma PreviewHeadingSkipsH6(tag: Option<string>, t: string, text: string)
    requires 0 < |t| <= 80 && NoEdgeSpace(t)
    ensures var e := ElementView(tag, [Heading(H(6), t)], text);
            !HasHeadingText(e) && HeadingText(e) == t
  {
    var h := Heading(H(6), t);
    var e := ElementView(tag, [h], text);
    assert FirstHeading(e.headings, 5).None? by {
      assert !MatchesHeading(e.headings[0], 5);
    }
    assert FirstHeading(e.headings, 6) == Some(h) by {
      assert MatchesHeading(e.headings[0], 6);
    }
    TrimKeepsTrimmed(t);
    var r := HeadingText(e);
    assert r <= t && |r| == |t|;
  }


  /** `raw.substring(0, 60)`, followed by `…` when that cut something off. */
  function Ellipsize(raw: string): (r: string)
    ensures |raw| <= PREVIEW_LIMIT ==> r == raw
    ensures |raw| > PREVIEW_LIMIT ==>
              |r| == PREVIEW_LIMIT + 1 && r[..PREVIEW_LIMIT] == raw[..PREVIEW_LIMIT] && r[PREVIEW_LIMIT] == ELLIPSIS
  {
    Take(raw, PREVIEW_LIMIT) + (if |raw| > PREVIEW_LIMIT then [ELLIPSIS] else "")
  }

  /** Cutting a trimmed, single-spaced text keeps it so: the cut may end in
      a space, but the ellipsis then follows it. */
  lemma EllipsizeKeepsSpacing(raw: string)
    requires NoEdgeSpace(raw) && SingleSpaced(raw)
    ensures NoEdgeSpace(Ellipsize(raw)) && SingleSpaced(Ellipsize(raw))
  {
    if |raw| > PREVIEW_LIMIT {
      var r := Ellipsize(raw);
      assert forall i :: 0 <= i < PREVIEW_LIMIT ==> r[i] == raw[i];
    }
  }

  /** The preview of a web part's rendered element, `""` when it is not
      rendered: the trimmed text of its heading if that text is not empty,
      otherwise its white-space-collapsed text cut to 60 characters, with
      `…` added when something was cut. */
  function PreviewText(el: Option<ElementView>): (r: string)
    ensures NoEdgeSpace(r)
    ensures el.None? ==> r == ""
    ensures el.Some? && HasHeadingText(el.value) ==> r == Trim(FirstHeading(el.value.headings, 5).value.text)
    ensures el.Some? && !HasHeadingText(el.value) ==> r == Ellipsize(RawText(el.value)) && SingleSpaced(r)
  {
    match el
    case None => ""
    case Some(e) =>
      if HasHeadingText(e) then Trim(FirstHeading(e.headings, 5).value.text)
      else
        EllipsizeKeepsSpacing(RawText(e));
        Ellipsize(RawText(e))
  }

  /** `${labelPrefix} - ${title}`, then ` (${previewText})` when the
      preview is not empty. */
  function ChoiceText(prefix: string, title: string, preview: string): (r: string)
    ensures var head := prefix + " - " + title;
            && |head| <= |r| && r[..|head|] == head
            && (preview == "" <==> |r| == |head|)
            && (preview != "" ==> r[|head|..] == " (" + preview + ")")
  {
    var head := prefix + " - " + title;
    if preview != "" then head + " (" + preview + ")" else head
  }

  /** Reads the preview back out of a label whose head is known. */
  function PreviewOf(text: string, head: string): string {
    if |text| < |head| + 3 then "" else text[|head| + 2..|text| - 1]
  }

  /** The preview can be read back from the label: nothing is lost in
      joining the parts. */
  lemma PreviewRoundTrip(prefix: string, title: string, preview: string)
    ensures PreviewOf(ChoiceText(prefix, title, preview), prefix + " - " + title) == preview
  {
    var head := prefix + " - " + title;
    if preview != "" {
      var r := head + " (" + preview + ")";
      assert r[|head| + 2..|r| - 1] == preview;
    }
  }

  /** The page as this file queries it: one `querySelector` per selector. */
  type PageLookup = string -> DomLookup<ElementView>

  /** The lookup this file makes for a control: the same selector, single
      quotes included, that a tour step targeting the control uses. */
  function ControlSelector(d: ControlData): (r: string)
    ensures SelectedId(r, '\'') == Some(InstanceIdTs(d))
  {
    InstanceSelector(Str(InstanceIdTs(d)))
  }

  /** The element a lookup found, if any. */
  function FoundElement(l: DomLookup<ElementView>): (r: Option<ElementView>)
    ensures r.Some? <==> l.Found?
  {
    if l.Found? then Some(l.element) else None
  }

  /** The choice for one control; `None` when its `querySelector` throws,
      which rejects the whole `GetAllWebpart` promise. */
  function ChoiceOf(p: Placement, dom: PageLookup): (r: Option<Choice>)
    ensures r.Some? <==> !dom(ControlSelector(p.control.data)).Threw?
    ensures r.Some? ==> r.value.key == InstanceIdTs(p.control.data)
    ensures r.Some? ==>
              r.value.text == ChoiceText(LabelPrefix(p.section, p.column), TitleTs(p.control.data),
                                         PreviewText(FoundElement(dom(ControlSelector(p.control.data)))))
  {
    var d := p.control.data;
    var l := dom(ControlSelector(d));
    if l.Threw? then None
    else Some(Choice(InstanceIdTs(d), ChoiceText(LabelPrefix(p.section, p.column), TitleTs(d), PreviewText(FoundElement(l)))))
  }

  /** No control's `querySelector` throws. */
  predicate LookupsSucceed(ps: seq<Placement>, dom: PageLookup) {
    forall i :: 0 <= i < |ps| ==> !dom(ControlSelector(ps[i].control.data)).Threw?
  }

  /** The choices for placements `ps`, built by the synchronous walk: all
      of them, or `None` when a lookup throws and the `async` function's
      promise rejects. */
  function ChoicesOf(ps: seq<Placement>, dom: PageLookup): (r: Option<seq<Choice>>)
    ensures r.Some? <==> LookupsSucceed(ps, dom)
    ensures r.Some? ==> |r.value| == |ps|
    ensures r.Some? ==> forall i :: 0 <= i < |ps| ==> ChoiceOf(ps[i], dom) == Some(r.value[i])
  {
    var f := p => ChoiceOf(p, dom);
    var r := CollectAll(ps, f);
    assert forall i :: 0 <= i < |ps| ==> f(ps[i]) == ChoiceOf(ps[i], dom);
    r
  }

  /** `GetAllWebpart()` on a fetched page: one choice per control, in walk
      order, each the control's key and label, or a rejected promise
      (`None`) when some lookup throws. */
  function GetAllWebpartTs(page: Page, dom: PageLookup): (r: Option<seq<Choice>>)
    ensures r.Some? <==> LookupsSucceed(Placements(page.sections), dom)
    ensures r.Some? ==> |r.value| == ControlCount(page.sections)
    ensures r.Some? ==> forall i :: 0 <= i < |r.value| ==>
              ChoiceOf(Placements(page.sections)[i], dom) == Some(r.value[i])
  {
    ChoicesOf(Placements(page.sections), dom)
  }

  /** Each choice of a resolved walk is its control's key and label: the
      position, the title and the preview of the element its lookup found. */
  lemma ChoicesAreLabels(page: Page, dom: PageLookup, i: nat)
    requires GetAllWebpartTs(page, dom).Some? && i < |GetAllWebpartTs(page, dom).value|
    ensures var p := Placements(page.sections)[i];
            var c := GetAllWebpartTs(page, dom).value[i];
            && c.key == InstanceIdTs(p.control.data)
            && c.text == ChoiceText(LabelPrefix(p.section, p.column), TitleTs(p.control.data),
                                    PreviewText(FoundElement(dom(ControlSelector(p.control.data)))))
  {
  }

  /** `onPropertyPaneConfigurationStart()`: when `GetAllWebpart()` resolves,
      keep the first choice per key; when it rejects, nothing changes. */
  method OnPropertyPaneConfigurationStart(page: Page, dom: PageLookup, s: PaneState<Choice>)
    returns (r: PaneState<Choice>)
    ensures GetAllWebpartTs(page, dom).None? ==> r == s
    ensures GetAllWebpartTs(page, dom).Some? ==>
              var all := GetAllWebpartTs(page, dom).value;
              && !r.loadIndicator
              && |r.webpartList| == |FirstIndices(all, ChoiceKey)|
              && (forall k :: 0 <= k < |r.webpartList| ==> r.webpartList[k] == all[FirstIndices(all, ChoiceKey)[k]])
              && UniqueKeys(r.webpartList, ChoiceKey)
              && KeySet(r.webpartList, ChoiceKey) == KeySet(all, ChoiceKey)
  {
    match GetAllWebpartTs(page, dom)
    case None =>
      r := s;
    case Some(all) =>
      var unique := KeepFirst(all, ChoiceKey);
      r := PaneState(unique, false);
  }

  /** `??` keeps an empty instance id where `||` falls back to the
      control's id: the two files agree on a control's key unless its
      instance id is the empty string and its id is not. */
  lemma KeysAgreeUnlessEmptyInstanceId(d: ControlData)
    ensures InstanceIdTs(d) == InstanceKey(d)
            <==> !(d.webPartData.Some? && d.webPartData.value.instanceId == Some("") && d.id != "")
  {
  }

  /** A heading whose text is only white space counts as present, so the
      element text is never consulted and the label gets no preview. */
  lemma BlankHeadingHidesPreview(e: ElementView, prefix: string, title: string)
    requires FirstHeading(e.headings, 5).Some?
    requires FirstHeading(e.headings, 5).value.text != ""
    requires AllSpace(FirstHeading(e.headings, 5).value.text)
    ensures PreviewText(Some(e)) == ""
    ensures ChoiceText(prefix, title, PreviewText(Some(e))) == prefix + " - " + title
  {
    var t := FirstHeading(e.headings, 5).value.text;
    AllSpaceHasNoNonSpace(t);
    NonSpaceOfTrimmed(Trim(t));
  }

  /** The two files agree on a title that is present, non-empty and
      already trimmed; without web part data they do not. */
  lemma TitlesAgreeWhenTrimmed(d: ControlData)
    ensures d.webPartData.Some? && d.webPartData.value.title.Some?
            && d.webPartData.value.title.value != "" && NoEdgeSpace(d.webPartData.value.title.value)
            ==> TitleTs(d) == DisplayTitle(d)
    ensures d.webPartData.None? ==> TitleTs(d) != DisplayTitle(d)
  {
    if d.webPartData.Some? && d.webPartData.value.title.Some? && NoEdgeSpace(d.webPartData.value.title.value) {
      TrimKeepsTrimmed(d.webPartData.value.title.value);
    }
  }
}

=== FILE: tour_web_part_tsx.dfy ===
/** The web part of `TourWebPart.tsx`: the list of web parts on the page,
    its de-duplication, the labels of the target dropdown, which wait for
    each web part to render, and the default for `collectionData`. */
module TourWebPartTsx {
  import opened Wrappers
  import opened JsStrings
  import opened JsValues
  import opened TourHelper
  import opened TourComponent
  import opened Dom
  import opened Polling
  import opened SitePage
  import opened Labels
  import opened Dedup

  const UNTITLED := "Untitled Web Part"

  /** The separator between a label's position and its text, an en dash
      with a space on each side. */
  const DASH := " \U{2013} "

  /** One entry of `webpartList`. */
  datatype WebPartInfo = WebPartInfo(section: int, column: int, key: string, title: string)

  function KeyOf(w: WebPartInfo): string {
    w.key
  }

  /** `control.data.webPartData?.instanceId || control.data.id`: a missing
      or empty instance id falls back to the control's id. */
  function InstanceKey(d: ControlData): (r: string)
    ensures d.webPartData.Some? && d.webPartData.value.instanceId.Some? && d.webPartData.value.instanceId.value != ""
            ==> r == d.webPartData.value.instanceId.value
    ensures r == d.id || (d.webPartData.Some? && d.webPartData.value.instanceId == Some(r) && r != "")
  {
    match d.webPartData
    case None => d.id
    case Some(w) =>
      match w.instanceId
      case None => d.id
      case Some(id) => OrElse(id, d.id)
  }

  /** `control.data.webPartData?.title?.trim() || 'Untitled Web Part'`. */
  function DisplayTitle(d: ControlData): (r: string)
    ensures r != "" && NoEdgeSpace(r)
    ensures r == UNTITLED || (d.webPartData.Some? && d.webPartData.value.title.Some? && r == Trim(d.webPartData.value.title.value))
    ensures d.webPartData.Some? && d.webPartData.value.title.Some? && Trim(d.webPartData.value.title.value) != ""
            ==> r == Trim(d.webPartData.value.title.value)
  {
    var t := match d.webPartData
             case None => ""
             case Some(w) => (match w.title case None => "" case Some(s) => Trim(s));
    OrElse(t, UNTITLED)
  }

  function InfoOf(p: Placement): WebPartInfo {
    WebPartInfo(p.section, p.column, InstanceKey(p.control.data), DisplayTitle(p.control.data))
  }

  /** `GetAllWebpart()` on a fetched page: one entry per control, in the
      order of the section, column and control walk. */
  function GetAllWebpart(page: Page): (r: seq<WebPartInfo>)
    ensures |r| == ControlCount(page.sections)
    ensures forall i :: 0 <= i < |r| ==> r[i] == InfoOf(Placements(page.sections)[i])
    ensures forall s, c, k ::
              (0 <= s < |page.sections| && 0 <= c < |page.sections[s].columns|
               && 0 <= k < |page.sections[s].columns[c].controls|) ==>
              InfoOf(Placement(page.sections[s].order, page.sections[s].columns[c].order,
                               page.sections[s].columns[c].controls[k])) in r
    ensures forall i :: 0 <= i < |r| ==> r[i].title != "" && NoEdgeSpace(r[i].title)
  {
    var ps := Placements(page.sections);
    var r := seq(|ps|, i requires 0 <= i < |ps| => InfoOf(ps[i]));
    InfosCover(ps, r);
    r
  }

  /** Every placement's entry is in a list of the placements' entries. */
  lemma InfosCover(ps: seq<Placement>, r: seq<WebPartInfo>)
    requires |r| == |ps| && forall i :: 0 <= i < |ps| ==> r[i] == InfoOf(ps[i])
    ensures forall p :: p in ps ==> InfoOf(p) in r
  {
    forall p | p in ps ensures InfoOf(p) in r {
      var i :| 0 <= i < |ps| && ps[i] == p;
      assert r[i] == InfoOf(p);
    }
  }

  /** What the property pane keeps between calls: `webpartList` and
      `loadIndicator`. */
  datatype PaneState<W> = PaneState(webpartList: seq<W>, loadIndicator: bool)

  /** `onPropertyPaneConfigurationStart()` once `GetAllWebpart()` has
      resolved: the entries of a `Map` keyed by `key`, so the keys appear in
      first-seen order and each holds the last entry with that key. */
  method OnPropertyPaneConfigurationStart(page: Page) returns (r: PaneState<WebPartInfo>)
    ensures !r.loadIndicator
    ensures var all := GetAllWebpart(page);
            && UniqueKeys(r.webpartList, KeyOf)
            && KeySet(r.webpartList, KeyOf) == KeySet(all, KeyOf)
            && |r.webpartList| == |FirstIndices(all, KeyOf)|
            && (forall k :: 0 <= k < |r.webpartList| ==>
                  r.webpartList[k].key == all[FirstIndices(all, KeyOf)[k]].key)
            && (forall k :: 0 <= k < |r.webpartList| ==>
                  r.webpartList[k].key in KeySet(all, KeyOf)
                  && r.webpartList[k] == all[LastIndexOf(all, KeyOf, r.webpartList[k].key)])
  {
    var all := GetAllWebpart(page);
    var unique := LastWins(all, KeyOf);
    KeysAtFirstIndices(all, KeyOf, unique);
    r := PaneState(unique, false);
  }

  /** The trimmed text of an attribute read with `?.trim()`; a missing
      attribute reads as the falsy `""`. */
  function FeatureTagText(el: ElementView): (r: string)
    ensures NoEdgeSpace(r)
    ensures el.featureTag.None? ==> r == ""
    ensures el.featureTag.Some? ==> r == Trim(el.featureTag.value)
  {
    match el.featureTag
    case None => ""
    case Some(t) => Trim(t)
  }

  /** The length of `text.substring(0, 80)`. */
  function CutLength(text: string): nat {
    if |text| <= 80 then |text| else 80
  }

  /** The trimmed text of the first `h1`..`h6` or `.ms-webpart-titleText`
      descendant, cut to 80 characters; `""` when there is none. */
  function HeadingText(el: ElementView): (r: string)
    ensures FirstHeading(el.headings, 6).None? ==> r == ""
    ensures FirstHeading(el.headings, 6).Some? ==>
              var t := Trim(FirstHeading(el.headings, 6).value.text);
              r <= t && |r| == CutLength(t)
  {
    match FirstHeading(el.headings, 6)
    case None => ""
    case Some(h) => Take(Trim(h.text), 80)
  }

  /** The element's trimmed text, cut to 80 characters. */
  function FallbackText(el: ElementView): (r: string)
    ensures r <= Trim(el.text) && |r| == CutLength(Trim(el.text))
  {
    Take(Trim(el.text), 80)
  }

  /** The candidates of the label text, most preferred first. */
  function LabelCandidates(el: Option<ElementView>, title: string): seq<string> {
    match el
    case None => [title, UNTITLED]
    case Some(e) => [FeatureTagText(e), HeadingText(e), FallbackText(e), title, UNTITLED]
  }

  /** The text after the dash: `featureTag || headingText || fallback`,
      then `|| wp.title || 'Untitled Web Part'`; only the last two when no
      element was found. It is never empty. */
  function LabelText(el: Option<ElementView>, title: string): (r: string)
    ensures r != ""
    ensures r == FirstNonEmpty(LabelCandidates(el, title))
  {
    match el
    case None =>
      TwoWayChain(title, UNTITLED);
      OrElse(title, UNTITLED)
    case Some(e) =>
      var feature, heading, fallback := FeatureTagText(e), HeadingText(e), FallbackText(e);
      FiveWayChain(feature, heading, fallback, title, UNTITLED);
      OrElse(OrElse(OrElse(OrElse(feature, heading), fallback), title), UNTITLED)
  }

  /** `sec[<section>] col[<column>] – <text>`. */
  function DropdownLabel(wp: WebPartInfo, el: Option<ElementView>): (r: string)
    ensures var head := LabelPrefix(wp.section, wp.column) + DASH;
            && |r| > |head| && r[..|head|] == head
            && r[|head|..] == FirstNonEmpty(LabelCandidates(el, wp.title))
  {
    var head := LabelPrefix(wp.section, wp.column) + DASH;
    var text := LabelText(el, wp.title);
    assert (head + text)[|head|..] == text;
    head + text
  }

  /** The dropdown's query for web part `key`; unlike the tour steps it
      quotes the id with double quotes. */
  function DropdownSelector(key: string): (r: string)
    ensures SelectedId(r, '"') == Some(key)
  {
    SelectorRoundTrip('"', key);
    INSTANCE_ATTR + "\"" + key + "\"]"
  }

  /** The dropdown and a tour step ask for the same instance with
      different text: double quotes against single quotes. */
  lemma SelectorsQuoteDifferently(key: string)
    ensures DropdownSelector(key) != InstanceSelector(Str(key))
    ensures SelectedId(DropdownSelector(key), '\'') == None
  {
    assert DropdownSelector(key)[|INSTANCE_ATTR|] == '"';
    assert InstanceSelector(Str(key))[|INSTANCE_ATTR|] == '\'';
  }

  datatype DropdownOption = DropdownOption(key: string, text: string)

  /** The page as the dropdown polls it: `dom(sel)(i)` is the answer to the
      `i`-th lookup of selector `sel`. */
  type PageDom = string -> nat -> DomLookup<ElementView>

  /** `waitForElement(selector, 20, 100)` for entry `wp`. */
  function Poll(wp: WebPartInfo, dom: PageDom): PollRun<ElementView> {
    WaitForElement(dom(DropdownSelector(wp.key)), 20)
  }

  /** The promise `componentDidMount` makes for one entry: its option once
      the wait resolves, `None` when it rejects or never settles. */
  function OptionOf(wp: WebPartInfo, dom: PageDom): (r: Option<DropdownOption>)
    ensures r.Some? <==> Poll(wp, dom).settlement.Resolved?
  {
    var run := Poll(wp, dom);
    if run.settlement.Resolved? then Some(DropdownOption(wp.key, DropdownLabel(wp, run.settlement.value)))
    else None
  }

  /** What `Promise.all` makes of the per-entry promises: the options in
      list order once every one has resolved, `None` when one rejects or
      never settles. */
  function Options(list: seq<WebPartInfo>, dom: PageDom): (r: Option<seq<DropdownOption>>)
    ensures r.Some? <==> forall i :: 0 <= i < |list| ==> Poll(list[i], dom).settlement.Resolved?
    ensures r.Some? ==> |r.value| == |list|
    ensures r.Some? ==> forall i :: 0 <= i < |list| ==>
              r.value[i] == DropdownOption(list[i].key, DropdownLabel(list[i], Poll(list[i], dom).settlement.value))
  {
    CollectAll(list, wp => OptionOf(wp, dom))
  }

  /** The dropdown's `{loading, options}` state. */
  datatype DropdownState = DropdownState(loading: bool, options: seq<DropdownOption>)

  const DropdownLoading := DropdownState(true, [])

  /** The state the dropdown reaches after `componentDidMount`: still
      loading unless every web part's wait resolved. */
  function DropdownDidMount(list: seq<WebPartInfo>, dom: PageDom): (r: DropdownState)
    ensures r.loading <==> exists i :: 0 <= i < |list| && !Poll(list[i], dom).settlement.Resolved?
    ensures r.loading ==> r == DropdownLoading
    ensures !r.loading ==> |r.options| == |list|
    ensures !r.loading ==> forall i :: 0 <= i < |list| ==>
              var head := LabelPrefix(list[i].section, list[i].column) + DASH;
              && r.options[i].key == list[i].key
              && |r.options[i].text| > |head| && r.options[i].text[..|head|] == head
  {
    match Options(list, dom)
    case None => DropdownLoading
    case Some(opts) => DropdownState(false, opts)
  }

  /** A web part that never renders within the 21 lookups is labelled with
      its title, or `Untitled Web Part` when the title is empty. */
  lemma UnrenderedUsesTitle(wp: WebPartInfo, dom: PageDom)
    requires forall j :: dom(DropdownSelector(wp.key))(j) == Missing
    ensures OptionOf(wp, dom)
            == Some(DropdownOption(wp.key, LabelPrefix(wp.section, wp.column) + DASH
                                           + (if wp.title != "" then wp.title else UNTITLED)))
  {
    DefaultsMakeOneExtraLookup(dom(DropdownSelector(wp.key)));
  }

  /** Why `getPropertyPaneConfiguration` can fail: `.map` on a truthy value
      that is not an array throws a `TypeError`. */
  datatype PaneError = MapIsNotAFunction

  /** `{ id: item.id, ...item }`: the spread copies every field of `item`,
      `id` included. */
  function WithOwnId(e: ConfigEntry): (r: ConfigEntry)
    ensures r == e
  {
    ConfigEntry(e.id, e.WebPart, e.StepDescription, e.Position, e.Enabled, e.sequence)
  }

  /** The `collectionData` that `getPropertyPaneConfiguration` leaves
      behind: a falsy value becomes `[]`, and every item is copied. */
  function EnsureCollectionData(c: Collection): (r: Result<seq<ConfigEntry>, PaneError>)
    ensures r.Failure? <==> c.NotArray? && Truthy(c.value)
    ensures c.Array? ==> r == Success(c.items)
    ensures c.NotArray? && !Truthy(c.value) ==> r == Success([])
  {
    var items: Result<seq<ConfigEntry>, PaneError> :=
      match c
      case Array(s) => Success(s)
      case NotArray(v) => if Truthy(v) then Failure(MapIsNotAFunction) else Success([]);
    match items
    case Failure(e) => Failure(e)
    case Success(s) =>
      var copied := seq(|s|, i requires 0 <= i < |s| => WithOwnId(s[i]));
      assert copied == s;
      Success(copied)
  }

  /** The default and the copy do not change what the tour shows. */
  lemma PaneDefaultKeepsTour(c: Collection)
    requires EnsureCollectionData(c).Success?
    ensures Expected(Array(EnsureCollectionData(c).value)) == Expected(c)
  {
    if c.NotArray? {
      CountEnabledZero(StepOrder.SortBySequence([]));
    }
  }

  /** Running the default a second time changes nothing. */
  lemma PaneDefaultIdempotent(c: Collection)
    requires EnsureCollectionData(c).Success?
    ensures EnsureCollectionData(Array(EnsureCollectionData(c).value)) == EnsureCollectionData(c)
  {
  }
}

=== FILE: wrappers.dfy ===
/** Optional values and results, standing in for JavaScript's `null`/`undefined`
    and for operations that throw. */
module Wrappers {

  /** `None` models a nullish value (`null` or `undefined`). */
  datatype Option<+T> = None | Some(value: T)

  /** `Failure` models a thrown exception or a rejected promise. */
  datatype Result<+T, +E> = Success(value: T) | Failure(error: E)

  /** `Promise.all` over per-element outcomes: every value, in order, when
      each element has one; `None` as soon as one does not. */
  function CollectAll<X, Y>(xs: seq<X>, f: X -> Option<Y>): (r: Option<seq<Y>>)
    ensures r.Some? <==> forall i :: 0 <= i < |xs| ==> f(xs[i]).Some?
    ensures r.Some? ==> |r.value| == |xs| && forall i :: 0 <= i < |xs| ==> Some(r.value[i]) == f(xs[i])
  {
    if |xs| == 0 then Some([])
    else
      var rest := CollectAll(xs[1..], f);
      assert forall i :: 1 <= i < |xs| ==> xs[1..][i - 1] == xs[i];
      match f(xs[0])
      case None => None
      case Some(y) => if rest.Some? then Some([y] + rest.value) else None
  }
}
